=== FILE: README.md ===
# Chinese translation patch for the HUE game: CSV codec and text merge

This project models, in Dafny, the part of the mod that rewrites the game's
localisation table, together with the helpers it relies on.

The model covers four pieces:

- **The CSV codec of `ModHelpers`** (`ZyMod.cs`):
  - the writer, `AppendCsvLine` and `WriteCsvLine`;
  - the reader, `ReadCsvRow` / `TryReadCsvRow`, `ReadCsvCells` and `ReadCsvCell`.
- **The INI line format of `IniConfig`** (`ZyMod.cs`), `_ReadFile` and `_WriteData`.
- **The translation table** that `HuePatcher.OverrideLanguage` loads from its CSV data (`HueZh.cs`).
- **The merge and the entry point** (`HueZh.cs`). The merge is `OverrideLanguage`, which rewrites every content line of the game's table. The entry point is the Harmony prefix `OverrideLocalizedText`, which guards the call and switches the header and the language name.

Modelling choices:

- A `TextReader` is the sequence of physical lines its `ReadLine` calls still have to give.
  - `LineText.Lines` splits a text the way `StringReader.ReadLine` and `File.ReadAllLines` do: "\r\n", "\r" and "\n" each end a line.
  - A quoted cell that spans lines pulls further lines from that sequence and joins them with "\n".
  - The reader's state inside a row is a `CsvReader.Cursor`. A cursor is either a position on the current line together with the unread lines, or `Exhausted`. `Exhausted` is the point where the source's `line` became null inside an unclosed quote.
- The lazy `IEnumerable` of cells and the reused `StringBuilder` become pure functions. These functions return all cells of a row and the lines left after it.
- The game's `string[]` is a sequence. The entry point and `OverrideLanguage` return the new contents instead of writing into the array.
- The data that `LoadData()` returns is a parameter.
- The count that `OverrideLanguage` only logs is returned in a `MergeOutcome`, so that its contract can say what it counts.
- The INI reader changes two things:
  - Field lookup by reflection becomes a set of writable field names.
  - A setting is a field name and its value text. Parsing that text into the field's type is not modelled.

## Model

| member | source | states |
|---|---|---|
| `LineText.ReadLine` | ZyMod.cs:160 | `StringReader.ReadLine`: null exactly at the end of the text, otherwise a line and a strictly shorter rest; what the line and the rest are is stated by `LineText.ReadLineSplitsAtBreak`. |
| `LineText.ReadLineSplitsAtBreak` | ZyMod.cs:160 | The line `ReadLine` returns is the break-free prefix up to the first '\r' or '\n', and the rest starts right after that break, with "\r\n" taken as one break; with no break the rest is empty. |
| `LineText.RemainderAfterHead` | ZyMod.cs:160 | The unread text after a `ReadLine` starts one character after the break that ends the line, or two when the break is "\r\n". |
| `LineText.Lines` | ZyMod.cs:160 | Definition of the lines successive `ReadLine` calls return; no lines exactly for the empty text. Behaviour stated by `LineText.LinesNoBreak` and `LineText.LinesCons`. |
| `LineText.LinesCons` | ZyMod.cs:160 | A non-empty text gives its first line and then the lines of what follows the first break. |
| `LineText.IndexOfFirst` | ZyMod.cs:172 | `IndexOf` returns the first index at or after `from` that holds the character. It returns -1 only when no such index exists. |
| `LineText.LinesNoBreak` | ZyMod.cs:160 | No line that `ReadLine` returns holds a '\r' or '\n'. |
| `LineText.NormHasNoCR` | ZyMod.cs:185 | Once line breaks are turned into "\n", no '\r' is left. |
| `LineText.NormKeepsNoCR` | ZyMod.cs:145 | A text without '\r' comes out of that normalisation unchanged. |
| `CsvWriter.EncodeCell` | ZyMod.cs:137-138 | A value is wrapped in quotes exactly when it holds one of ',', '"', '\r', '\n', and what lies between the quotes is the value with every quote doubled (`CsvWriter.EscapeQuotesPairs`). Otherwise it is written as it is. |
| `CsvWriter.EscapeQuotes` | ZyMod.cs:137 | Doubling the quotes makes the text longer by exactly the number of quotes in it. |
| `CsvWriter.EscapeQuotesPairs` | ZyMod.cs:137 | In the escaped text every quote is one of an adjacent pair, and collapsing each pair to one quote gives the value back. |
| `CsvWriter.CellsWithCommasJoin` | ZyMod.cs:135-139 | The `foreach` appends the encoded values joined by single commas, plus one trailing comma. |
| `CsvWriter.AppendCsvLine` | ZyMod.cs:133-142 | The result is the builder's text, then "\r\n" if the builder was not empty, then the encoded values joined by single commas. The last comma is dropped, and nothing is added for no values. |
| `CsvWriter.WriteCsvLine` | ZyMod.cs:130 | Definition; behaviour stated by `CsvWriter.WriteCsvLineJoins` and `CsvRoundTrip.DocumentRoundTrip`. |
| `CsvWriter.WriteCsvLineJoins` | ZyMod.cs:130 | A written line is the encoded values joined by commas, then "\r\n". |
| `CsvReader.ScanQuoted` | ZyMod.cs:180-195 | Definition of the quoted-cell loop; behaviour stated by `CsvReader.ScanCloses`, `CsvReader.ScanDoubledQuote`, `CsvReader.ScanLineEnd`, `CsvReader.LoneQuoteKept`, `CsvReader.UnclosedScan`, `CsvReader.ScanAdvances` and `CsvRoundTrip.ScanEncoded`. |
| `CsvReader.ReadCell` | ZyMod.cs:168-196 | Definition of `ReadCsvCell`; behaviour stated by `CsvReader.UnquotedCell`, `CsvReader.ReadCellAdvances` and `CsvRoundTrip.ReadEncodedCell`. |
| `CsvReader.ReadCsvRow` | ZyMod.cs:159-162 | There is no row exactly when the reader has no line left. Otherwise the row has at least one cell, uses up at least one line, and leaves a suffix of the lines. |
| `CsvReader.ReadCells` | ZyMod.cs:164-166 | A row has at least one cell. The lines left are a suffix of those given. |
| `CsvReader.ReadAllRows` | HueZh.cs:69-70 | Reading until `TryReadCsvRow` fails gives at most one row per line, and every row has a cell. |
| `CsvReader.ReadCellAdvances` | ZyMod.cs:168-196 | Every cell read leaves the reader further on: later on the same line, or on a later line. |
| `CsvReader.ScanAdvances` | ZyMod.cs:180-195 | The quoted-cell loop only moves forward, so it ends. |
| `CsvReader.UnquotedCell` | ZyMod.cs:171-177 | An unquoted cell is the text from its start up to the next comma or the end of the line, and it holds no comma. Reading resumes after that comma; at the end of the line it resumes one past the end. |
| `CsvReader.SplitAtFirstComma` | ZyMod.cs:172-176 | The reference split into pieces between commas: a comma-free text is one piece, and a first comma separates the first piece from the rest. |
| `CsvReader.QuoteFreeCellsFrom` | ZyMod.cs:164-177 | From any position of a quote-free line, the cells read are the pieces between commas, and no further line is read. |
| `CsvReader.QuoteFreeLine` | ZyMod.cs:159-177 | A line without quotes reads as `Split(',')` of itself, so an empty line is one empty cell and a trailing comma gives a trailing empty cell. The lines after it are left unread. |
| `CsvReader.ScanCloses` | ZyMod.cs:187-189 | A quote followed by a comma or the end of the line closes the cell. The cell holds what was scanned, and reading resumes after the comma. |
| `CsvReader.ScanDoubledQuote` | ZyMod.cs:190-192 | Two quotes in a row put one quote into the cell, and the scan goes on after them. |
| `CsvReader.ScanLineEnd` | ZyMod.cs:182-186 | At the end of a line the rest of the line is kept, a "\n" is added, and the scan continues at the start of the next line. |
| `CsvReader.ScanSkipsNonQuote` | ZyMod.cs:181 | Skipping a character that is not a quote leaves the scan's result unchanged. |
| `CsvReader.LoneQuoteKept` | ZyMod.cs:193-194 | A quote followed by anything but a comma, a quote or the end of the line does not end the cell. The scan goes on after it with the cell's start unchanged, so the quote stays in the text. |
| `CsvReader.UnclosedScan` | ZyMod.cs:182-184 | With no quote left on the line or after it, the scan takes everything that is left, joined by "\n", and runs out of lines. |
| `CsvReader.UnclosedQuoteTakesRest` | ZyMod.cs:182-184 | An opening quote with no other quote after it, on its line or on any later line, makes one cell of all remaining lines, joined by "\n". The row then ends without failing. |
| `CsvReader.ScanKeepsNoCR` | ZyMod.cs:180-195 | A quoted cell read from lines without '\r' holds no '\r'. |
| `CsvReader.RowKeepsNoCR` | ZyMod.cs:164-166 | No cell of a row read from lines without '\r' holds a '\r'. |
| `CsvRoundTrip.ScanEncoded` | ZyMod.cs:180-195 | The quoted-cell scan over an escaped value gives that value back, with each line break as "\n". It stops just after the closing quote's comma or line end. |
| `CsvRoundTrip.ReadEncodedCell` | ZyMod.cs:168-196 | Reading one written cell gives the value back, line breaks normalised, and stops right after the character that follows it. |
| `CsvRoundTrip.ReadEncodedCells` | ZyMod.cs:164-166 | Reading the cells of a written row gives every value back, in order. |
| `CsvRoundTrip.RowRoundTrip` | ZyMod.cs:133-142 | Reading back a row that `AppendCsvLine` wrote on an empty builder gives the values, and no line is left. A lone empty value writes no text and so gives no row. |
| `CsvRoundTrip.DocumentFirstRow` | ZyMod.cs:130 | The first row read from text written by successive `WriteCsvLine` calls is the first written row. The lines left are those of the later rows. |
| `CsvRoundTrip.DocumentRoundTrip` | ZyMod.cs:151-152 | Reading rows from the text of successive `WriteCsvLine` calls gives every written row back, in order. |
| `CsvRoundTrip.NormAllUnchanged` | ZyMod.cs:145 | Values without a carriage return come back exactly as written. |
| `HueTable.AddRow` | HueZh.cs:71-74 | Definition of one turn of the load loop; behaviour stated by `HueTable.TranslatedKeys`, `HueTable.KeptKeys` and `HueTable.LastRowWins`. |
| `HueTable.Collect` | HueZh.cs:69-75 | Definition of the load loop over the rows read; behaviour stated by `HueTable.TranslatedKeys`, `HueTable.KeptKeys`, `HueTable.LastRowWins` and `HueTable.TranslationsAreSingleLine`. |
| `HueTable.BuildTable` | HueZh.cs:68-75 | Definition: the table loaded from the rows of `LoadData()`'s text; behaviour stated by `HuePatcher.TableHasNoCR` and the `Collect` lemmas. |
| `HueTable.SingleLineFlattens` | HueZh.cs:74 | Replacing '\r' and '\n' by spaces keeps the length and every other character, and leaves no line break. One-line text is unchanged. |
| `HueTable.TranslatedKeys` | HueZh.cs:69-75 | A key is in the translation map exactly when some loaded row gives it a non-empty translation cell. |
| `HueTable.KeptKeys` | HueZh.cs:72 | A key is in the keep-original set exactly when some loaded row leaves its translation cell empty. |
| `HueTable.LastRowWins` | HueZh.cs:74 | A key's translation is that of the last row that translates it, flattened to one line. |
| `HueTable.TranslationsAreSingleLine` | HueZh.cs:74 | Every translation is non-empty and holds no line break. |
| `HueTable.KeyInBothSets` | HueZh.cs:71-74 | A key can be both translated and kept original: an empty translation row followed by a translation row gives both. |
| `HueTable.OnlyEnglishHeaderSkipped` | HueZh.cs:71 | Only the exact ("Column", "english") header row is skipped. A "Column" row with another translation is loaded. |
| `HuePatcher.LineCells` | HueZh.cs:83 | Definition of reading a game line with a fresh `StringReader`; behaviour stated by `HuePatcher.KeyRowReadsBack` and `CsvReader.QuoteFreeLine`. |
| `HuePatcher.RewriteLine` | HueZh.cs:83-94 | Definition of one turn of the merge loop; behaviour stated by `HuePatcher.RewriteStep`, `HuePatcher.RewriteReadsBack`, `HuePatcher.RewriteKeepsKey` and `HuePatcher.RewriteIdempotent`. |
| `HuePatcher.Merge` | HueZh.cs:82-95 | Definition of the lines after the merge loop; behaviour stated by `HuePatcher.MergeIndex`, `HuePatcher.MergeKeepsKeys` and `HuePatcher.MergeLines`. |
| `HuePatcher.MergeResult` | HueZh.cs:77-95 | Definition of the lines `OverrideLanguage` leaves; behaviour stated by `HuePatcher.OverrideLanguage` and `HuePatcher.MergeTwice`. |
| `HuePatcher.RewriteStep` | HueZh.cs:83-92 | A line with at least two cells and a non-empty key becomes the row (key, text). The text is the translation when the key has one, else the line's own second cell, or "?" when that cell is empty. Any other line stays as it is. |
| `HuePatcher.RewriteOne` | HueZh.cs:83-92 | The imperative loop body computes that rewrite. It reports a translation exactly when the line's key is in the map. |
| `HuePatcher.RewriteAt` | HueZh.cs:83-94 | One turn of the loop replaces line `i` alone and adds one to the count exactly for a translated line. |
| `HuePatcher.RewriteBackwards` | HueZh.cs:82-95 | Walking from the last line down to index 1 leaves line 0 alone and rewrites every other line on its own. The count it ends with is the number of translated lines after the header. |
| `HuePatcher.MergeLines` | HueZh.cs:81-95 | The loop's result is the merge: same length, header kept, each later line rewritten. Its count is the number of lines after the header whose key has a translation. |
| `HuePatcher.OverrideLanguage` | HueZh.cs:64-97 | With at most one translation loaded, it gives up and changes nothing. Otherwise it merges and reports how many lines it translated. |
| `HuePatcher.MergeIndex` | HueZh.cs:82-94 | The merged table keeps line 0 and holds the rewrite of line `j` at index `j` for every later line. |
| `HuePatcher.KeyRowReadsBack` | HueZh.cs:92 | The row written for a key and a text without '\r' reads back as exactly those two cells. |
| `HuePatcher.RewriteReadsBack` | HueZh.cs:85-92 | A rewritten line reads back as exactly two cells. The first is its key. The second is the translation, or else the line's own second cell, with "?" for an empty one. |
| `HuePatcher.RewriteKeepsKey` | HueZh.cs:84-94 | Rewriting never changes a line's key, and a line without a key stays without one. |
| `HuePatcher.RewriteIdempotent` | HueZh.cs:83-94 | Rewriting an already rewritten line with the same translations changes nothing. |
| `HuePatcher.MergeKeepsKeys` | HueZh.cs:82-95 | The merge keeps the number of lines, the header line and the key of every line. |
| `HuePatcher.MergeLeavesKeylessLines` | HueZh.cs:84 | Lines with fewer than two cells or an empty key come out exactly as they went in. |
| `HuePatcher.TableHasNoCR` | HueZh.cs:74 | No loaded translation holds a carriage return. |
| `HuePatcher.MergeKeepsCount` | HueZh.cs:84-91 | The merge keeps which lines count as translated, so counting its output gives the same number as counting its input. |
| `HuePatcher.OverrideLanguageTwice` | HueZh.cs:64-97 | A second `OverrideLanguage` on its own output with the same data leaves the lines unchanged and reports the same outcome, the same count included. |
| `HuePatcher.MergeTwice` | HueZh.cs:64-97 | Running `OverrideLanguage` again with the same data on its own output changes nothing. |
| `HuePatcher.OverrideLocalizedText` | HueZh.cs:49-60 | A missing table, or one of at most one line, is left alone. Otherwise the language index becomes 1. A game already in "chinese" keeps its lines. Any other game gets the language "chinese", the header "Column,chinese" and the merged lines, even when the merge gave up. |
| `HuePatcher.OverrideLocalizedTextTwice` | HueZh.cs:49-60 | A second call of the entry point changes nothing more. |
| `Ini.TrimStartSuffix` | ZyMod.cs:325 | `TrimStart` drops exactly a leading run of white space. |
| `Ini.TrimEndPrefix` | ZyMod.cs:325 | `TrimEnd` drops exactly a trailing run of white space. |
| `Ini.TrimUnchanged` | ZyMod.cs:335 | `Trim` leaves a text unchanged exactly when no white space is at either end. |
| `Ini.TrimIdempotent` | ZyMod.cs:325 | Trimming twice is trimming once. |
| `Ini.TrimSkipsLeadingSpace` | ZyMod.cs:325 | A leading space does not change the trimmed text. |
| `Ini.TrimSkipsTrailingSpace` | ZyMod.cs:325 | A trailing space after a trimmed, non-empty text is removed. |
| `Ini.SplitAtFirstEquals` | ZyMod.cs:323 | `Split('=', 2)` gives one piece exactly when there is no '='. Otherwise it splits at the first '=': the first piece holds no '=', and the pieces joined with '=' give the line. |
| `Ini.ReadIniLine` | ZyMod.cs:323-327 | A line without '=' or starting with ';' sets nothing. A line sets something only when its trimmed name is a writable field, and that name is trimmed. |
| `Ini.ReadIni` | ZyMod.cs:321-329 | Definition of `_ReadFile` on a file's lines; behaviour stated by `Ini.AssignKeys`, `Ini.AssignLastWins`, `Ini.ReadIniOne` and `Ini.ReadIniIgnoredFirst`. |
| `Ini.ReadIniFile` | ZyMod.cs:322 | Definition of `_ReadFile` on a file's text split by `File.ReadAllLines`; behaviour stated by `Ini.FieldRoundTrip` and `Ini.NullRoundTrip`. |
| `Ini.AssignKeys` | ZyMod.cs:322-328 | A field ends up set exactly when some line sets it. |
| `Ini.AssignLastWins` | ZyMod.cs:322-328 | A field's value is the one from the last line that sets it. |
| `Ini.ReadIniOne` | ZyMod.cs:322-328 | A file of one line sets exactly what that line sets. |
| `Ini.ReadIniIgnoredFirst` | ZyMod.cs:324 | A first line that sets nothing has no effect on the file. |
| `Ini.WriteData` | ZyMod.cs:330-338 | Definition of `_WriteData` with the corrected value encoding; behaviour stated by `Ini.FieldRoundTrip`, `Ini.NullRoundTrip` and `Ini.CommentedFieldRoundTrip`. |
| `Ini.CommentText` | ZyMod.cs:331 | A null or empty comment writes nothing. Any other comment writes a line. |
| `Ini.EncodeValueAsWritten` | ZyMod.cs:333-336 | The source's writer: a value is wrapped in quotes exactly when it has white space at an end, and is written as it is otherwise. |
| `Ini.EncodeValue` | ZyMod.cs:333-336 | The corrected writer of "## Findings" (it also quotes a value that starts and ends with a quote): the written value text has no white space at either end. |
| `Ini.UnquoteEncoded` | ZyMod.cs:326 | Stripping the quotes from a value written by the corrected writer gives the value back. |
| `Ini.ReadFieldLine` | ZyMod.cs:323-326 | A line `name = text` reads as the field `name` with `text` trimmed and unquoted. |
| `Ini.FieldRoundTrip` | ZyMod.cs:330-338 | With the corrected writer, writing a field with a one-line value and reading the file back sets that field to that value, and nothing else. The source's writer fails this for `"x"` (`Ini.QuotedValueLosesQuotes`). |
| `Ini.NullRoundTrip` | ZyMod.cs:333-337 | A null value is written as nothing after "= " and is read back as the empty text. |
| `Ini.CommentIgnored` | ZyMod.cs:331 | A comment that does not start with '[' is written behind "; " (or as it is when it starts with ';'). The reader ignores that line. |
| `Ini.CommentedFieldRoundTrip` | ZyMod.cs:330-338 | With the corrected writer, a field with such a comment above it still reads back as written. |
| `Ini.AsWrittenRoundTrip` | ZyMod.cs:333-337 | With the source's writer, a value comes back exactly when it is not a quote-wrapped text without surrounding white space. |
| `Ini.QuotedValueLosesQuotes` | ZyMod.cs:335 | With the source's writer, the value `"x"` is written bare and read back as `x`. |

## Left out

- Logging (`Info`, `Fine`, `Warn`, `Error`, `Err`) has no effect on the data and is not modelled. The "Untranslated" message, the only use of the keep-original set, is logging too. So the merge depends on the translation map alone.
- `LoadData`, the resource bytes and the file it rewrites are file I/O. The CSV text it returns is a parameter.
- The `try`/`catch` blocks are left out: every modelled operation is total, so no exception is modelled. A null entry in the game's line array would throw in the source; the model's lines are never null.
- `OverrideLocalizedText` does not model a null `selectedLanguage`. The entry point compares the language name as a plain string.
- The DEBUG-only dump of the original lines, `OverrideSubtitles`, mod start-up, Harmony patching and `RootMod`/`Patcher` are not part of this model.
- The second `ReadCsvRow` of an untranslated line (HueZh.cs:87) reads the same text as the first, so the model reuses the first read's cells.
- `BaseConfig` loading and saving, reflection over fields, `_ReadField`/`_SetField` type conversion and `CsvConfig` are not part of this model. Ini fields are a set of names, and values stay text.
- Ini: the round-trip lemmas cover values and comments without line breaks. A multi-line comment or value spreads over several lines when read back, and the reader takes no care to rejoin them.
- Ini.IsWhite: the white space set is that of `Char.IsWhiteSpace`, which `String.Trim` uses from .NET 4 on. The source also builds for .NET 3.5 (ZyMod.cs:230-234), whose `Trim` also strips U+200B and U+FEFF and keeps U+202F and U+205F; that build's trimming is not modelled.
- Ini: `line.StartsWith(";")` (ZyMod.cs:324) and `val.StartsWith("\"")` / `val.EndsWith("\"")` (ZyMod.cs:326) are culture-sensitive string comparisons in the source; the model tests the first or last character exactly (`Ini.ReadIniLine`, `Ini.Wrapped`). They can differ only for text that starts or ends with a character the culture comparison ignores.
- `ReadCsvCells` yields cells lazily. The model reads the whole row at once, so a caller that stops enumerating early is not modelled.
- `val?.ToString()` is modelled for strings and null only (`CsvWriter.Render`). Other value types are not modelled.
- `DumpComponents` and the other helpers of `ZyMod.cs` are not part of this model.

Behaviour of the code that a reader might not expect, which the model keeps:

- `OverrideLanguage` gives up when `map.Count <= 1` (HueZh.cs:77), so a single translation is not enough to merge anything (`HuePatcher.OverrideLanguage`).
- An untranslated line whose second cell is empty becomes "?" (HueZh.cs:89). This happens even when its key is in the keep-original set, which is only consulted for logging (HueZh.cs:88) (`HuePatcher.RewriteStep`).
- Nothing stops a key from being both translated and kept original (HueZh.cs:71-74, `HueTable.KeyInBothSets`).
- Only the exact ("Column", "english") row is skipped as a header (HueZh.cs:71, `HueTable.OnlyEnglishHeaderSkipped`).

## Findings

| source | as written | input that shows it | evidently intended | confidence | as-written member | corrected member |
|---|---|---|---|---|---|---|
| ZyMod.cs:333-337 | `_WriteData` quotes a value only when trimming would change it. `_ReadFile` strips one pair of surrounding quotes from every value. | The value `"x"`, with the quotes. It has no surrounding white space, so it is written bare as `speed = "x"` and read back as `x`. | Also quote values that start and end with a quote, so that every one-line value reads back as written. | not executed | `Ini.QuotedValueLosesQuotes` | `Ini.FieldRoundTrip` |

`Ini.AsWrittenRoundTrip` gives the as-written writer's exact behaviour: a value survives the round trip if and only if it is not a quote-wrapped text without surrounding white space. The corrected writer is `Ini.EncodeValue`, which `Ini.WriteData` uses.

=== FILE: csv_reader.dfy ===
/**
 * The CSV row reader of `ModHelpers`: `ReadCsvRow` / `TryReadCsvRow`,
 * `ReadCsvCells` and `ReadCsvCell`. The text reader is the sequence of
 * physical lines it still has to give; a quoted cell may pull further lines
 * from it, joining them with "\n".
 */
module CsvReader {
  import opened Nullable
  import opened LineText

  /**
   * Where the reader stands inside a row: the current physical line, the
   * index of its next unread character (one past its end once its last cell
   * was read) and the lines not yet read. `Exhausted` is the state in which a
   * quoted cell asked for another line and the reader had none.
   */
  datatype Cursor = At(line: string, pos: nat, rest: seq<string>) | Exhausted

  datatype CellRead = CellRead(text: string, next: Cursor)

  /** The cells of one logical row and the lines left after it. */
  datatype Row = Row(cells: seq<string>, rest: seq<string>)

  predicate IsSuffix(a: seq<string>, b: seq<string>) {
    |a| <= |b| && a == b[|b| - |a|..]
  }

  /**
   * `c` lies after the cursor (line, pos, rest): further on the same line,
   * or on a later line taken from `rest`. This is the reader's termination measure.
   */
  predicate Advanced(line: string, pos: nat, rest: seq<string>, c: Cursor) {
    c.At? ==>
      && c.pos <= |c.line| + 1
      && IsSuffix(c.rest, rest)
      && ((c.line == line && c.rest == rest && c.pos > pos) || (|c.rest| < |rest| && c.line in rest))
  }

  /**
   * The `while (true)` loop of `ReadCsvCell` inside a quoted cell. `buf`
   * holds the content of earlier lines, `line[start..pos]` the content
   * scanned on this line so far.
   */
  function ScanQuoted(buf: string, line: string, start: nat, pos: nat, rest: seq<string>): CellRead
    requires start <= pos <= |line|
    decreases |rest|, |line| - pos
  {
    var end := if pos < |line| then IndexOf(line, '"', pos) else -1;
    if end < 0 then
      // End of line: keep what is left of it and continue on the next line.
      var taken := buf + line[start..];
      if |rest| == 0 then CellRead(taken, Exhausted)
      else ScanQuoted(taken + "\n", rest[0], 0, 0, rest[1..])
    else if end + 1 == |line| || line[end + 1] == ',' then
      // Closing quote.
      CellRead(buf + line[start..end], At(line, end + 2, rest))
    else if line[end + 1] == '"' then
      // A doubled quote stands for one quote.
      ScanQuoted(buf + line[start..end + 1], line, end + 2, end + 2, rest)
    else
      // A lone quote followed by anything else stays in the cell.
      ScanQuoted(buf, line, start, pos + 1, rest)
  }

  /** The quoted-cell scan only moves forward; with `ReadCellAdvances` this is why a row ends. */
  lemma {:induction false} ScanAdvances(buf: string, line: string, start: nat, pos: nat, rest: seq<string>)
    requires start <= pos <= |line|
    ensures Advanced(line, pos, rest, ScanQuoted(buf, line, start, pos, rest).next)
    decreases |rest|, |line| - pos
  {
    var end := if pos < |line| then IndexOf(line, '"', pos) else -1;
    if end < 0 {
      if |rest| > 0 {
        var taken := buf + line[start..];
        ScanAdvances(taken + "\n", rest[0], 0, 0, rest[1..]);
        AdvancedToNextLine(line, pos, rest, ScanQuoted(taken + "\n", rest[0], 0, 0, rest[1..]).next);
      }
    } else if end + 1 == |line| || line[end + 1] == ',' {
    } else if line[end + 1] == '"' {
      ScanAdvances(buf + line[start..end + 1], line, end + 2, end + 2, rest);
    } else {
      ScanAdvances(buf, line, start, pos + 1, rest);
    }
  }

  /** A cursor past the start of the next line is past any position on this one. */
  lemma AdvancedToNextLine(line: string, pos: nat, rest: seq<string>, c: Cursor)
    requires |rest| > 0 && Advanced(rest[0], 0, rest[1..], c)
    ensures Advanced(line, pos, rest, c)
  {
    if c.At? {
      assert rest[1..][|rest[1..]| - |c.rest|..] == rest[|rest| - |c.rest|..];
      assert c.line in rest;
    }
  }

  /** A quoted cell read from lines without '\r' has none either. */
  lemma {:induction false} ScanKeepsNoCR(buf: string, line: string, start: nat, pos: nat, rest: seq<string>)
    requires start <= pos <= |line|
    requires NoCR(buf) && NoCR(line) && AllNoCR(rest)
    ensures NoCR(ScanQuoted(buf, line, start, pos, rest).text)
    decreases |rest|, |line| - pos
  {
    var end := if pos < |line| then IndexOf(line, '"', pos) else -1;
    if end < 0 {
      var taken := buf + line[start..];
      assert NoCR(taken);
      if |rest| > 0 {
        assert NoCR(rest[0]);
        ScanKeepsNoCR(taken + "\n", rest[0], 0, 0, rest[1..]);
      }
    } else if end + 1 == |line| || line[end + 1] == ',' {
      assert NoCR(line[start..end]);
    } else if line[end + 1] == '"' {
      assert NoCR(line[start..end + 1]);
      ScanKeepsNoCR(buf + line[start..end + 1], line, end + 2, end + 2, rest);
    } else {
      ScanKeepsNoCR(buf, line, start, pos + 1, rest);
    }
  }

  /** `ReadCsvCell`: the cell starting at `pos` and where the reader stands after it. */
  function ReadCell(line: string, pos: nat, rest: seq<string>): CellRead
    requires pos <= |line|
  {
    if pos >= |line| then CellRead("", At(line, |line| + 1, rest))
    else if line[pos] != '"' then
      var end := IndexOf(line, ',', pos);
      if end < 0 then CellRead(line[pos..], At(line, |line| + 1, rest))
      else if end == pos then CellRead("", At(line, pos + 1, rest))
      else CellRead(line[pos..end], At(line, end + 1, rest))
    else
      ScanQuoted("", line, pos + 1, pos + 1, rest)
  }

  /** Every cell read moves the reader forward. */
  lemma ReadCellAdvances(line: string, pos: nat, rest: seq<string>)
    requires pos <= |line|
    ensures Advanced(line, pos, rest, ReadCell(line, pos, rest).next)
  {
    if pos < |line| && line[pos] == '"' {
      ScanAdvances("", line, pos + 1, pos + 1, rest);
    }
  }

  lemma ReadCellKeepsNoCR(line: string, pos: nat, rest: seq<string>)
    requires pos <= |line| && NoCR(line) && AllNoCR(rest)
    ensures NoCR(ReadCell(line, pos, rest).text)
  {
    if pos < |line| && line[pos] == '"' {
      ScanKeepsNoCR("", line, pos + 1, pos + 1, rest);
    }
  }

  /**
   * An unquoted cell is the text from `pos` up to the next comma or the end
   * of the line, and reading resumes after that comma.
   */
  lemma UnquotedCell(line: string, pos: nat, rest: seq<string>)
    requires pos == |line| || (pos < |line| && line[pos] != '"')
    ensures var r := ReadCell(line, pos, rest);
      && pos + |r.text| <= |line|
      && r.text == line[pos..pos + |r.text|]
      && Lacks(r.text, ',')
      && (pos + |r.text| == |line| || line[pos + |r.text|] == ',')
      && r.next == At(line, pos + |r.text| + 1, rest)
  {
    if pos < |line| {
      IndexOfFirst(line, ',', pos);
    }
  }

  /** `ReadCsvCells`: cells are read while the cursor has not passed the end of its line. */
  function ReadCells(line: string, pos: nat, rest: seq<string>): (r: Row)
    requires pos <= |line|
    ensures |r.cells| >= 1
    ensures IsSuffix(r.rest, rest)
    decreases |rest|, |line| - pos
  {
    var c := ReadCell(line, pos, rest);
    ReadCellAdvances(line, pos, rest);
    match c.next
    case Exhausted => Row([c.text], [])
    case At(l, p, more) =>
      if p <= |l| then
        var tail := ReadCells(l, p, more);
        Row([c.text] + tail.cells, tail.rest)
      else
        Row([c.text], more)
  }

  /** A cell that ends before the end of its line is followed by the cells after it. */
  lemma CellsContinue(line: string, pos: nat, rest: seq<string>)
    requires pos <= |line|
    requires var c := ReadCell(line, pos, rest).next; c.At? && c.pos <= |c.line|
    ensures var c := ReadCell(line, pos, rest);
      var tail := ReadCells(c.next.line, c.next.pos, c.next.rest);
      ReadCells(line, pos, rest) == Row([c.text] + tail.cells, tail.rest)
  {
  }

  /** A cell that ends its line is the last cell of the row. */
  lemma CellsStop(line: string, pos: nat, rest: seq<string>)
    requires pos <= |line|
    requires var c := ReadCell(line, pos, rest).next; c.At? && c.pos == |c.line| + 1
    ensures var c := ReadCell(line, pos, rest);
      ReadCells(line, pos, rest) == Row([c.text], c.next.rest)
  {
  }

  /** A cursor that only moved forward stands on lines taken from the input. */
  lemma CursorKeepsNoCR(line: string, pos: nat, rest: seq<string>, c: Cursor)
    requires Advanced(line, pos, rest, c) && c.At?
    ensures NoCR(line) && AllNoCR(rest) ==> NoCR(c.line) && AllNoCR(c.rest)
  {
    if NoCR(line) && AllNoCR(rest) {
      var k := |rest| - |c.rest|;
      forall i | 0 <= i < |c.rest|
        ensures NoCR(c.rest[i])
      {
        assert c.rest[i] == rest[k + i];
      }
    }
  }

  /** Cells read from lines without '\r' have none either. */
  lemma {:induction false} ReadCellsKeepNoCR(line: string, pos: nat, rest: seq<string>)
    requires pos <= |line| && NoCR(line) && AllNoCR(rest)
    ensures AllNoCR(ReadCells(line, pos, rest).cells)
    decreases |rest|, |line| - pos
  {
    var c := ReadCell(line, pos, rest);
    ReadCellAdvances(line, pos, rest);
    ReadCellKeepsNoCR(line, pos, rest);
    if c.next.At? && c.next.pos <= |c.next.line| {
      CursorKeepsNoCR(line, pos, rest, c.next);
      ReadCellsKeepNoCR(c.next.line, c.next.pos, c.next.rest);
    }
  }

  /**
   * `ReadCsvRow` (and `TryReadCsvRow`, which only reports whether a row came):
   * no row when the reader has no more lines, otherwise a row of at least one cell.
   */
  function ReadCsvRow(source: seq<string>): (r: Option<Row>)
    ensures r.None? <==> |source| == 0
    ensures r.Some? ==> |r.value.cells| >= 1 && |r.value.rest| < |source| && IsSuffix(r.value.rest, source)
  {
    if |source| == 0 then None else Some(ReadCells(source[0], 0, source[1..]))
  }

  /** A row read from lines without '\r' has no '\r' in its cells. */
  lemma RowKeepsNoCR(source: seq<string>)
    requires AllNoCR(source) && |source| > 0
    ensures AllNoCR(ReadCsvRow(source).value.cells)
  {
    ReadCellsKeepNoCR(source[0], 0, source[1..]);
  }

  /** The rows of `while (reader.TryReadCsvRow(out var row, buf))`, each row's cells in order. */
  function ReadAllRows(source: seq<string>): (r: seq<seq<string>>)
    ensures |r| <= |source|
    ensures forall i :: 0 <= i < |r| ==> |r[i]| >= 1
    decreases |source|
  {
    match ReadCsvRow(source)
    case None => []
    case Some(row) => [row.cells] + ReadAllRows(row.rest)
  }

  /** `s.Split(',')`: the pieces between commas; an empty text is one empty piece. */
  function SplitAtCommas(s: string): (r: seq<string>)
    ensures |r| >= 1
  {
    if |s| == 0 then [""]
    else
      var tail := SplitAtCommas(s[1..]);
      if s[0] == ',' then [""] + tail else [[s[0]] + tail[0]] + tail[1..]
  }

  lemma {:induction false} SplitAtFirstComma(t: string, u: string)
    requires Lacks(t, ',')
    ensures SplitAtCommas(t) == [t]
    ensures SplitAtCommas(t + "," + u) == [t] + SplitAtCommas(u)
    decreases |t|
  {
    if |t| == 0 {
      assert t + "," + u == [','] + u;
      assert (t + "," + u)[1..] == u;
    } else {
      SplitAtFirstComma(t[1..], u);
      assert (t + "," + u)[1..] == t[1..] + "," + u;
      assert t == [t[0]] + t[1..];
    }
  }

  /** The cells from `pos` on are the pieces between commas. */
  predicate PlainCells(line: string, pos: nat, rest: seq<string>)
    requires pos <= |line|
  {
    ReadCells(line, pos, rest) == Row(SplitAtCommas(line[pos..]), rest)
  }

  /** `s` holds no quote; recursive, so that the proofs below unfold it only on demand. */
  predicate QuoteFree(s: string) {
    |s| == 0 || (s[0] != '"' && QuoteFree(s[1..]))
  }

  lemma {:induction false} QuoteFreeLacks(s: string)
    ensures QuoteFree(s) <==> Lacks(s, '"')
  {
    if |s| > 0 {
      QuoteFreeLacks(s[1..]);
      assert forall i :: 1 <= i < |s| ==> s[i] == s[1..][i - 1];
    }
  }

  lemma {:induction false} QuoteFreeCellsFrom(line: string, pos: nat, rest: seq<string>)
    requires pos <= |line| && QuoteFree(line)
    ensures PlainCells(line, pos, rest)
    decreases |line| - pos
  {
    var t := PlainCellStep(line, pos, rest);
    if pos + |t| < |line| {
      QuoteFreeCellsFrom(line, pos + |t| + 1, rest);
    }
  }

  /**
   * On a line without quotes, the first cell from `pos` is the text `t` up to
   * the next comma or the end of the line; the cells after that comma are
   * read from just after it.
   */
  lemma PlainCellStep(line: string, pos: nat, rest: seq<string>) returns (t: string)
    requires pos <= |line| && QuoteFree(line)
    ensures pos + |t| <= |line|
    ensures pos + |t| == |line| ==> PlainCells(line, pos, rest)
    ensures pos + |t| < |line| ==> (PlainCells(line, pos + |t| + 1, rest) ==> PlainCells(line, pos, rest))
  {
    QuoteFreeLacks(line);
    UnquotedCell(line, pos, rest);
    t := ReadCell(line, pos, rest).text;
    PlainCellThen(line, pos, rest, t);
  }

  /** The step of `PlainCellStep` once the first cell `t` is known. */
  lemma PlainCellThen(line: string, pos: nat, rest: seq<string>, t: string)
    requires pos + |t| <= |line| && t == line[pos..pos + |t|] && Lacks(t, ',')
    requires pos + |t| == |line| || line[pos + |t|] == ','
    requires ReadCell(line, pos, rest) == CellRead(t, At(line, pos + |t| + 1, rest))
    ensures pos + |t| == |line| ==> PlainCells(line, pos, rest)
    ensures pos + |t| < |line| ==> (PlainCells(line, pos + |t| + 1, rest) ==> PlainCells(line, pos, rest))
  {
    SplitAfterCell(line, pos, t);
    if pos + |t| < |line| {
      CellsContinue(line, pos, rest);
    } else {
      CellsStop(line, pos, rest);
    }
  }

  /** The pieces of a line from `pos` on, when the first of them is `t`. */
  lemma SplitAfterCell(line: string, pos: nat, t: string)
    requires pos + |t| <= |line| && t == line[pos..pos + |t|] && Lacks(t, ',')
    requires pos + |t| == |line| || line[pos + |t|] == ','
    ensures pos + |t| == |line| ==> SplitAtCommas(line[pos..]) == [t]
    ensures pos + |t| < |line| ==> SplitAtCommas(line[pos..]) == [t] + SplitAtCommas(line[pos + |t| + 1..])
  {
    if pos + |t| < |line| {
      assert line[pos..] == t + "," + line[pos + |t| + 1..];
      SplitAtFirstComma(t, line[pos + |t| + 1..]);
    } else {
      assert line[pos..] == t;
      SplitAtFirstComma(t, "");
    }
  }

  /**
   * On a line without quotes, cells are the pieces between commas: an empty
   * line is one empty cell, a trailing comma gives a trailing empty cell, and
   * no further line is read.
   */
  lemma QuoteFreeLine(line: string, rest: seq<string>)
    requires Lacks(line, '"')
    ensures ReadCsvRow([line] + rest) == Some(Row(SplitAtCommas(line), rest))
  {
    assert ([line] + rest)[1..] == rest;
    QuoteFreeLacks(line);
    QuoteFreeCellsFrom(line, 0, rest);
  }

  /** A quote followed by a comma or the end of the line closes the cell. */
  lemma ScanCloses(buf: string, line: string, start: nat, pos: nat, rest: seq<string>)
    requires start <= pos < |line| && line[pos] == '"'
    requires pos + 1 == |line| || line[pos + 1] == ','
    ensures ScanQuoted(buf, line, start, pos, rest) == CellRead(buf + line[start..pos], At(line, pos + 2, rest))
  {
    assert IndexOf(line, '"', pos) == pos;
  }

  /** Two quotes in a row put one quote into the cell and the scan continues after them. */
  lemma ScanDoubledQuote(buf: string, line: string, start: nat, pos: nat, rest: seq<string>)
    requires start <= pos && pos + 1 < |line| && line[pos] == '"' && line[pos + 1] == '"'
    ensures ScanQuoted(buf, line, start, pos, rest) == ScanQuoted(buf + line[start..pos + 1], line, pos + 2, pos + 2, rest)
  {
    assert IndexOf(line, '"', pos) == pos;
  }

  /** At the end of a line the cell goes on, after a "\n", on the next line. */
  lemma ScanLineEnd(buf: string, line: string, start: nat, rest: seq<string>)
    requires start <= |line| && |rest| > 0
    ensures ScanQuoted(buf, line, start, |line|, rest) == ScanQuoted(buf + line[start..] + "\n", rest[0], 0, 0, rest[1..])
  {
  }

  /** Skipping a character that is not a quote does not change what the quoted-cell scan returns. */
  lemma ScanSkipsNonQuote(buf: string, line: string, start: nat, pos: nat, rest: seq<string>)
    requires start <= pos < |line| && line[pos] != '"'
    ensures ScanQuoted(buf, line, start, pos, rest) == ScanQuoted(buf, line, start, pos + 1, rest)
  {
    if pos + 1 < |line| {
      var e := IndexOf(line, '"', pos);
      assert e == IndexOf(line, '"', pos + 1);
    }
  }

  /**
   * A quote followed by neither a comma, the end of the line nor a second
   * quote neither closes the cell nor is dropped: the scan goes on after it
   * with the cell's start unchanged, so the quote stays in the text.
   */
  lemma {:induction false} LoneQuoteKept(buf: string, line: string, start: nat, pos: nat, e: nat, rest: seq<string>)
    requires start <= pos <= e && e + 1 < |line|
    requires line[e] == '"' && line[e + 1] != ',' && line[e + 1] != '"'
    requires forall i :: pos <= i < e ==> line[i] != '"'
    ensures ScanQuoted(buf, line, start, pos, rest) == ScanQuoted(buf, line, start, e + 1, rest)
    decreases e - pos
  {
    if pos < e {
      ScanSkipsNonQuote(buf, line, start, pos, rest);
      LoneQuoteKept(buf, line, start, pos + 1, e, rest);
    } else {
      assert IndexOf(line, '"', pos) == e;
    }
  }

  lemma {:induction false} UnclosedScan(buf: string, line: string, start: nat, pos: nat, rest: seq<string>)
    requires start <= pos <= |line|
    requires forall i :: pos <= i < |line| ==> line[i] != '"'
    requires forall j :: 0 <= j < |rest| ==> Lacks(rest[j], '"')
    ensures ScanQuoted(buf, line, start, pos, rest) == CellRead(buf + Join([line[start..]] + rest, "\n"), Exhausted)
    decreases |rest|
  {
    if |rest| > 0 {
      UnclosedScan(buf + line[start..] + "\n", rest[0], 0, 0, rest[1..]);
      assert [rest[0]] + rest[1..] == rest;
      assert rest[0][0..] == rest[0];
      assert ([line[start..]] + rest)[1..] == rest;
    }
  }

  /**
   * An opening quote with no other quote after it, on its line or on any later
   * line, makes one cell of every remaining line, joined by "\n", and the reader
   * ends the row when it runs out of lines instead of failing.
   */
  lemma UnclosedQuoteTakesRest(first: string, more: seq<string>)
    requires Lacks(first, '"')
    requires forall j :: 0 <= j < |more| ==> Lacks(more[j], '"')
    ensures ReadCsvRow(["\"" + first] + more) == Some(Row([Join([first] + more, "\n")], []))
  {
    var line := "\"" + first;
    assert (["\"" + first] + more)[1..] == more;
    UnclosedScan("", line, 1, 1, more);
    assert line[1..] == first;
    var text := Join([first] + more, "\n");
    assert ReadCell(line, 0, more) == CellRead(text, Exhausted);
    assert ReadCells(line, 0, more) == Row([text], []);
  }
}

=== FILE: csv_roundtrip.dfy ===
/**
 * Write-then-read for the CSV codec: splitting the text `AppendCsvLine` or
 * `WriteCsvLine` produced into lines and reading it back gives the written
 * values, except that each line break inside a value comes back as "\n".
 */
module CsvRoundTrip {
  import opened Nullable
  import opened LineText
  import opened CsvWriter
  import opened CsvReader

  /** Text that may follow a written cell: nothing, a comma, or a line break. */
  predicate EndsCell(t: string) {
    |t| == 0 || t[0] == ',' || IsBreak(t[0])
  }

  /** Text that may follow a written row: nothing or a line break. */
  predicate EndsRow(t: string) {
    |t| == 0 || IsBreak(t[0])
  }

  /** What reading a written value gives back. */
  function NormAll(values: seq<Option<string>>): seq<string> {
    seq(|values|, i requires 0 <= i < |values| => Norm(Render(values[i])))
  }

  /**
   * The reader stopped right after the character that ended a cell, when
   * the unread text following that cell is `t`.
   */
  predicate StoppedBefore(c: Cursor, t: string) {
    && c.At?
    && 1 <= c.pos <= |c.line| + 1
    && NoBreak(c.line)
    && c.line[c.pos - 1..] == LineHead(t)
    && c.rest == Lines(Remainder(t))
  }

  /** `Remainder` on a text that starts with a line break. */
  lemma RemainderAtBreak(s: string)
    requires |s| > 0 && IsBreak(s[0])
    ensures Remainder(s) == if s[0] == '\r' && |s| > 1 && s[1] == '\n' then s[2..] else s[1..]
  {
  }

  /** Escaping does not change the first character unless it is a quote. */
  lemma EscapeFirst(w: string, y: string)
    requires |w| > 0 && w[0] != '"'
    ensures EscapeQuotes(w) + y == [w[0]] + (EscapeQuotes(w[1..]) + y)
  {
  }

  lemma EscapeStartsLike(w: string, y: string)
    requires |y| > 0 && y[0] == '"'
    ensures (EscapeQuotes(w) + y)[0] == '\n' <==> |w| > 0 && w[0] == '\n'
  {
    if |w| > 0 && w[0] != '"' {
      EscapeFirst(w, y);
    }
  }

  lemma EscapeAtBreak(w: string, y: string)
    requires |w| > 0 && IsBreak(w[0]) && |y| > 0 && y[0] == '"'
    ensures Remainder(EscapeQuotes(w) + y) == EscapeQuotes(Remainder(w)) + y
  {
    var x := EscapeQuotes(w) + y;
    EscapeFirst(w, y);
    var x1 := EscapeQuotes(w[1..]) + y;
    assert x == [w[0]] + x1;
    assert x[1..] == x1;
    RemainderAtBreak(w);
    RemainderAtBreak(x);
    EscapeStartsLike(w[1..], y);
    if w[0] == '\r' && |w| > 1 && w[1] == '\n' {
      EscapeFirst(w[1..], y);
      assert w[1..][1..] == w[2..];
      assert x[2..] == x1[1..];
    }
  }

  /** The quoted-cell scan with `p` read on the current line and `x` the unread text. */
  function ScanAt(buf: string, p: string, start: nat, x: string): CellRead
    requires start <= |p|
  {
    ScanQuoted(buf, p + LineHead(x), start, |p|, Lines(Remainder(x)))
  }

  /** The escaped content is empty: the next quote closes the cell. */
  lemma ScanEncodedEmpty(buf: string, p: string, start: nat, t: string)
    requires NoBreak(p) && start <= |p| && EndsCell(t)
    ensures ScanAt(buf, p, start, "\"" + t) == CellRead(buf + p[start..], ScanAt(buf, p, start, "\"" + t).next)
    ensures StoppedBefore(ScanAt(buf, p, start, "\"" + t).next, t)
  {
    HeadPrefix("\"", t);
    LineHeadNoBreak(t);
    assert p + LineHead("\"" + t) == p + "\"" + LineHead(t);
    if |LineHead(t)| > 0 {
      HeadStarts(t);
    }
    ClosingQuote(buf, p, start, LineHead(t), Lines(Remainder(t)));
  }

  /** A quote followed by a comma or the end of the line closes the cell with the text scanned so far. */
  lemma ClosingQuote(buf: string, p: string, start: nat, h: string, rest: seq<string>)
    requires start <= |p| && NoBreak(p) && NoBreak(h) && (|h| == 0 || h[0] == ',')
    ensures var line := p + "\"" + h;
      && ScanQuoted(buf, line, start, |p|, rest) == CellRead(buf + p[start..], At(line, |p| + 2, rest))
      && line[|p| + 1..] == h && NoBreak(line)
  {
    var line := p + "\"" + h;
    assert line[|p|] == '"';
    ScanCloses(buf, line, start, |p|, rest);
    assert line[start..|p|] == p[start..];
  }

  /** The escaped content starts with a doubled quote. */
  lemma ScanEncodedQuote(buf: string, p: string, start: nat, x2: string)
    requires NoBreak(p) && start <= |p|
    ensures ScanAt(buf, p, start, "\"\"" + x2) == ScanAt(buf + p[start..] + "\"", p + "\"\"", |p| + 2, x2)
  {
    HeadPrefix("\"\"", x2);
    var line := p + "\"\"" + LineHead(x2);
    assert p + LineHead("\"\"" + x2) == line;
    assert line[|p|] == '"' && line[|p| + 1] == '"';
    assert Remainder("\"\"" + x2) == Remainder(x2);
    ScanDoubledQuote(buf, line, start, |p|, Lines(Remainder(x2)));
    assert line[start..|p| + 1] == p[start..] + "\"";
    assert buf + line[start..|p| + 1] == buf + p[start..] + "\"";
    assert (p + "\"\"") + LineHead(x2) == line;
    assert |p + "\"\""| == |p| + 2;
  }

  /** The escaped content starts with a line break: the scan moves to the next line. */
  lemma ScanEncodedBreak(buf: string, p: string, start: nat, x: string)
    requires NoBreak(p) && start <= |p| && |x| > 0 && IsBreak(x[0]) && |Remainder(x)| > 0
    ensures ScanAt(buf, p, start, x) == ScanAt(buf + p[start..] + "\n", "", 0, Remainder(x))
  {
    var z := Remainder(x);
    HeadAtBreak(x);
    assert p + LineHead(x) == p;
    LinesCons(z);
    ScanLineEnd(buf, p, start, Lines(z));
    assert "" + LineHead(z) == LineHead(z);
  }

  /** The escaped content starts with an ordinary character. */
  lemma ScanEncodedPlain(buf: string, p: string, start: nat, c: char, x2: string)
    requires NoBreak(p) && start <= |p| && c != '"' && !IsBreak(c)
    ensures ScanAt(buf, p, start, [c] + x2) == ScanAt(buf, p + [c], start, x2)
  {
    HeadPrefix([c], x2);
    var line := p + [c] + LineHead(x2);
    assert p + LineHead([c] + x2) == line;
    assert (p + [c]) + LineHead(x2) == line;
    ScanSkipsNonQuote(buf, line, start, |p|, Lines(Remainder(x2)));
  }

  /** What the quoted-cell scan over escaped content `w`, closing quote and then `t` returns. */
  predicate ScanGives(buf: string, p: string, start: nat, w: string, t: string)
    requires start <= |p|
  {
    var r := ScanAt(buf, p, start, Quoted(w, t));
    r.text == buf + p[start..] + Norm(w) && StoppedBefore(r.next, t)
  }

  lemma ScanGivesEmpty(buf: string, p: string, start: nat, t: string)
    requires NoBreak(p) && start <= |p| && EndsCell(t)
    ensures ScanGives(buf, p, start, "", t)
  {
    assert Quoted("", t) == "\"" + t;
    ScanEncodedEmpty(buf, p, start, t);
    assert Norm("") == "";
  }

  /** The text that follows the opening quote of a written cell with content `w`, followed by `t`. */
  function Quoted(w: string, t: string): string {
    EscapeQuotes(w) + "\"" + t
  }

  lemma QuoteStep(buf: string, p: string, start: nat, w: string, t: string)
    requires NoBreak(p) && start <= |p| && |w| > 0 && w[0] == '"'
    ensures ScanAt(buf, p, start, Quoted(w, t)) == ScanAt(buf + p[start..] + "\"", p + "\"\"", |p| + 2, Quoted(w[1..], t))
  {
    assert Quoted(w, t) == "\"\"" + Quoted(w[1..], t);
    ScanEncodedQuote(buf, p, start, Quoted(w[1..], t));
  }

  lemma BreakStep(buf: string, p: string, start: nat, w: string, t: string)
    requires NoBreak(p) && start <= |p| && |w| > 0 && IsBreak(w[0])
    ensures ScanAt(buf, p, start, Quoted(w, t)) == ScanAt(buf + p[start..] + "\n", "", 0, Quoted(Remainder(w), t))
  {
    QuotedAtBreak(w, t);
    ScanEncodedBreak(buf, p, start, Quoted(w, t));
  }

  /** Escaping keeps a leading line break, and what follows it is the escaped rest. */
  lemma QuotedAtBreak(w: string, t: string)
    requires |w| > 0 && IsBreak(w[0])
    ensures var x := Quoted(w, t);
      |x| > 0 && IsBreak(x[0]) && Remainder(x) == Quoted(Remainder(w), t) && |Remainder(x)| > 0
  {
    var x := Quoted(w, t);
    assert x == EscapeQuotes(w) + ("\"" + t);
    EscapeAtBreak(w, "\"" + t);
    assert Remainder(x) == EscapeQuotes(Remainder(w)) + ("\"" + t);
    EscapeFirst(w, "\"" + t);
  }

  lemma PlainStep(buf: string, p: string, start: nat, w: string, t: string)
    requires NoBreak(p) && start <= |p| && |w| > 0 && w[0] != '"' && !IsBreak(w[0])
    ensures ScanAt(buf, p, start, Quoted(w, t)) == ScanAt(buf, p + [w[0]], start, Quoted(w[1..], t))
  {
    EscapeFirst(w, "\"" + t);
    assert Quoted(w, t) == [w[0]] + Quoted(w[1..], t);
    ScanEncodedPlain(buf, p, start, w[0], Quoted(w[1..], t));
  }

  lemma ScanGivesQuote(buf: string, p: string, start: nat, w: string, t: string)
    requires NoBreak(p) && start <= |p| && EndsCell(t) && |w| > 0 && w[0] == '"'
    requires ScanGives(buf + p[start..] + "\"", p + "\"\"", |p| + 2, w[1..], t)
    ensures ScanGives(buf, p, start, w, t)
  {
    QuoteStep(buf, p, start, w, t);
    var p2 := p + "\"\"";
    assert p2[|p| + 2..] == "";
    assert Norm(w) == "\"" + Norm(w[1..]);
  }

  lemma ScanGivesBreak(buf: string, p: string, start: nat, w: string, t: string)
    requires NoBreak(p) && start <= |p| && EndsCell(t) && |w| > 0 && IsBreak(w[0])
    requires ScanGives(buf + p[start..] + "\n", "", 0, Remainder(w), t)
    ensures ScanGives(buf, p, start, w, t)
  {
    BreakStep(buf, p, start, w, t);
    assert Norm(w) == "\n" + Norm(Remainder(w));
    ConcatAfterBreak(buf + p[start..], ""[0..], Norm(Remainder(w)));
  }

  /**
   * Regrouping after a line break. The empty `e` stands for the slice `""[0..]`
   * that `ScanGives` produces on a fresh line; naming it keeps the solver from
   * rewriting that slice inside the longer concatenation.
   */
  lemma ConcatAfterBreak(a: string, e: string, n: string)
    requires e == ""
    ensures a + "\n" + e + n == a + ("\n" + n)
  {
  }

  lemma ScanGivesPlain(buf: string, p: string, start: nat, w: string, t: string)
    requires NoBreak(p) && start <= |p| && EndsCell(t) && |w| > 0 && w[0] != '"' && !IsBreak(w[0])
    requires ScanGives(buf, p + [w[0]], start, w[1..], t)
    ensures ScanGives(buf, p, start, w, t)
  {
    PlainStep(buf, p, start, w, t);
    PlainText(buf, p, start, w);
  }

  /** The text a plain character adds to the scan is the character itself. */
  lemma PlainText(buf: string, p: string, start: nat, w: string)
    requires start <= |p| && |w| > 0 && !IsBreak(w[0])
    ensures buf + (p + [w[0]])[start..] + Norm(w[1..]) == buf + p[start..] + Norm(w)
  {
    assert (p + [w[0]])[start..] == p[start..] + [w[0]];
    assert Norm(w) == [w[0]] + Norm(w[1..]);
  }

  /** The quoted-cell scan over escaped content `w` followed by the closing quote. */
  lemma {:induction false} ScanEncoded(buf: string, p: string, start: nat, w: string, t: string)
    requires NoBreak(p) && start <= |p| && EndsCell(t)
    ensures ScanGives(buf, p, start, w, t)
    decreases |w|
  {
    if |w| == 0 {
      ScanGivesEmpty(buf, p, start, t);
    } else if w[0] == '"' {
      ScanEncoded(buf + p[start..] + "\"", p + "\"\"", |p| + 2, w[1..], t);
      ScanGivesQuote(buf, p, start, w, t);
    } else if IsBreak(w[0]) {
      ScanEncoded(buf + p[start..] + "\n", "", 0, Remainder(w), t);
      ScanGivesBreak(buf, p, start, w, t);
    } else {
      ScanEncoded(buf, p + [w[0]], start, w[1..], t);
      ScanGivesPlain(buf, p, start, w, t);
    }
  }

  /** The cell read at `pos` is the value `v`, normalised, and reading stops just before `t`. */
  predicate CellReadsBack(line: string, pos: nat, rest: seq<string>, v: string, t: string)
    requires pos <= |line|
  {
    var r := ReadCell(line, pos, rest);
    r.text == Norm(v) && StoppedBefore(r.next, t)
  }

  /** Reading one written cell gives the value back and stops after the character that follows it. */
  lemma ReadEncodedCell(v: string, p: string, t: string)
    requires NoBreak(p) && EndsCell(t)
    ensures var x := EncodeCell(v) + t;
            CellReadsBack(p + LineHead(x), |p|, Lines(Remainder(x)), v, t)
  {
    if NeedsQuote(v) {
      ReadQuotedCell(v, p, t);
    } else {
      ReadPlainCell(v, p, t);
    }
  }

  lemma ReadQuotedCell(v: string, p: string, t: string)
    requires NoBreak(p) && EndsCell(t) && NeedsQuote(v)
    ensures var x := EncodeCell(v) + t;
            CellReadsBack(p + LineHead(x), |p|, Lines(Remainder(x)), v, t)
  {
    var y := Quoted(v, t);
    var x := EncodeCell(v) + t;
    QuotedEncoding(v, t);
    HeadPrefix("\"", y);
    QuotedRead(v, p, t);
    CellTransfer(p, LineHead(x), LineHead(y), Lines(Remainder(x)), Lines(Remainder(y)), v, t);
  }

  /** The cell read at `|p|` depends only on the line and the lines after it. */
  lemma CellTransfer(p: string, hx: string, hy: string, rx: seq<string>, ry: seq<string>, v: string, t: string)
    requires hx == "\"" + hy && rx == ry
    requires CellReadsBack(p + "\"" + hy, |p|, ry, v, t)
    ensures CellReadsBack(p + hx, |p|, rx, v, t)
  {
    assert p + hx == p + "\"" + hy;
  }

  /** The cell that opens with a quote before the escaped value is the value, read up to its closing quote. */
  lemma QuotedRead(v: string, p: string, t: string)
    requires NoBreak(p) && EndsCell(t)
    ensures var y := Quoted(v, t);
            CellReadsBack(p + "\"" + LineHead(y), |p|, Lines(Remainder(y)), v, t)
  {
    var y := Quoted(v, t);
    var p2 := p + "\"";
    QuotedCellStart(p, LineHead(y), Lines(Remainder(y)));
    ScanEncoded("", p2, |p2|, v, t);
    EmptyTail(p2, Norm(v));
  }

  lemma QuotedEncoding(v: string, t: string)
    requires NeedsQuote(v)
    ensures EncodeCell(v) + t == "\"" + Quoted(v, t)
  {
  }

  /** The scanned text is empty right after the opening quote: `q[|q|..]` adds nothing. */
  lemma EmptyTail(q: string, n: string)
    ensures "" + q[|q|..] + n == n
  {
    assert q[|q|..] == "";
  }

  /** A cell that starts with a quote is read by the quoted-cell scan from the character after it. */
  lemma QuotedCellStart(p: string, h: string, rest: seq<string>)
    ensures var line := p + "\"" + h;
      ReadCell(line, |p|, rest) == ScanQuoted("", line, |p| + 1, |p| + 1, rest)
  {
    var line := p + "\"" + h;
    assert line[|p|] == '"';
  }

  /** A value that needs no quotes is written as is and has no comma or line break. */
  lemma PlainValue(v: string)
    requires !NeedsQuote(v)
    ensures EncodeCell(v) == v && NoBreak(v) && Lacks(v, ',') && NoCR(v) && Lacks(v, '"')
  {
    forall i | 0 <= i < |v|
      ensures !IsQuoteTrigger(v[i])
    {
    }
  }

  /** An unquoted value `v` between `p` and a comma or the end of the line is read back as `v`. */
  lemma PlainCellRead(p: string, v: string, h: string, rest: seq<string>)
    requires Lacks(v, ',') && Lacks(v, '"') && (|h| == 0 || h[0] == ',')
    ensures var line := p + v + h;
      ReadCell(line, |p|, rest) == CellRead(v, At(line, |p| + |v| + 1, rest))
  {
    var line := p + v + h;
    assert |p| == |line| || line[|p|] != '"' by {
      if |v| > 0 {
        assert line[|p|] == v[0];
      } else if |h| > 0 {
        assert line[|p|] == h[0];
      }
    }
    UnquotedCell(line, |p|, rest);
    var r := ReadCell(line, |p|, rest);
    PlainCellLength(p, v, h, r.text);
  }

  /** The unquoted cell read from `p + v + h` is `v`: it runs up to the first comma. */
  lemma PlainCellLength(p: string, v: string, h: string, c: string)
    requires Lacks(v, ',') && (|h| == 0 || h[0] == ',')
    requires var line := p + v + h;
      |p| + |c| <= |line| && c == line[|p|..|p| + |c|] && Lacks(c, ',') &&
      (|p| + |c| == |line| || line[|p| + |c|] == ',')
    ensures c == v
  {
    var line := p + v + h;
    assert |h| > 0 ==> line[|p| + |v|] == ',';
    assert forall k :: 0 <= k < |v| ==> line[|p| + k] == v[k];
    assert forall k :: 0 <= k < |c| ==> c[k] == line[|p| + k];
    assert |c| == |v|;
    assert line[|p|..|p| + |v|] == v;
  }

  lemma StoppedAfter(p: string, v: string, h: string, rest: seq<string>, t: string)
    requires NoBreak(p) && NoBreak(v) && h == LineHead(t) && rest == Lines(Remainder(t))
    ensures StoppedBefore(At(p + v + h, |p| + |v| + 1, rest), t)
  {
    LineHeadNoBreak(t);
    var line := p + v + h;
    assert line[|p| + |v|..] == h;
  }

  lemma ReadPlainCell(v: string, p: string, t: string)
    requires NoBreak(p) && EndsCell(t) && !NeedsQuote(v)
    ensures var x := EncodeCell(v) + t;
            CellReadsBack(p + LineHead(x), |p|, Lines(Remainder(x)), v, t)
  {
    PlainValue(v);
    NormKeepsNoCR(v);
    HeadPrefix(v, t);
    assert p + LineHead(v + t) == p + v + LineHead(t);
    if |LineHead(t)| > 0 {
      HeadStarts(t);
    }
    PlainCellRead(p, v, LineHead(t), Lines(Remainder(t)));
    StoppedAfter(p, v, LineHead(t), Lines(Remainder(t)), t);
  }

  lemma NormAllCons(values: seq<Option<string>>)
    requires |values| > 0
    ensures NormAll(values) == [Norm(Render(values[0]))] + NormAll(values[1..])
  {
  }

  /** After the last cell of a row the reader stands past the end of its line. */
  lemma StoppedAtRowEnd(c: Cursor, t: string)
    requires StoppedBefore(c, t) && EndsRow(t)
    ensures c.pos == |c.line| + 1
  {
    if |t| > 0 {
      HeadAtBreak(t);
    }
  }

  /** After a cell followed by a comma the reader stands on the same line, right after that comma. */
  lemma StoppedAtComma(c: Cursor, tail: string)
    requires StoppedBefore(c, "," + tail)
    ensures c.pos <= |c.line| && NoBreak(c.line[..c.pos])
    ensures c.line == c.line[..c.pos] + LineHead(tail) && c.rest == Lines(Remainder(tail))
  {
    HeadPrefix(",", tail);
    SplitAfterComma(c.line, c.pos, LineHead(tail));
  }

  lemma SplitAfterComma(line: string, q: nat, h: string)
    requires 1 <= q <= |line| + 1 && NoBreak(line) && line[q - 1..] == "," + h
    ensures q <= |line| && line == line[..q] + h && NoBreak(line[..q])
  {
    assert line[q..] == h;
    assert line == line[..q] + line[q..];
  }

  /** Reading the cells written for `values`, followed by `t`, from a line whose first `|p|` characters are already read. */
  predicate CellsGive(values: seq<Option<string>>, p: string, t: string)
    requires |values| >= 1
  {
    var x := Join(EncodeAll(values), ",") + t;
    ReadCells(p + LineHead(x), |p|, Lines(Remainder(x))) == Row(NormAll(values), Lines(Remainder(t)))
  }

  /** The written row is its first cell, a comma and the rest of the row. */
  lemma JoinFirst(values: seq<Option<string>>, t: string)
    requires |values| >= 2
    ensures Join(EncodeAll(values), ",") + t == EncodeCell(Render(values[0])) + ("," + (Join(EncodeAll(values[1..]), ",") + t))
  {
    assert EncodeAll(values)[1..] == EncodeAll(values[1..]);
  }

  lemma ReadLastCell(values: seq<Option<string>>, p: string, t: string)
    requires |values| == 1 && NoBreak(p) && EndsRow(t)
    ensures CellsGive(values, p, t)
  {
    var x := Join(EncodeAll(values), ",") + t;
    var line := p + LineHead(x);
    var rest := Lines(Remainder(x));
    assert x == EncodeCell(Render(values[0])) + t;
    ReadEncodedCell(Render(values[0]), p, t);
    var c := ReadCell(line, |p|, rest);
    StoppedAtRowEnd(c.next, t);
    CellsStop(line, |p|, rest);
  }

  /**
   * Reading the first of several written cells leaves the reader on a line
   * whose read part is `p2`, in front of the remaining cells.
   */
  lemma ReadFirstCell(values: seq<Option<string>>, p: string, t: string) returns (p2: string)
    requires |values| >= 2 && NoBreak(p) && EndsRow(t)
    ensures NoBreak(p2)
    ensures CellsGive(values[1..], p2, t) ==> CellsGive(values, p, t)
  {
    var x := Join(EncodeAll(values), ",") + t;
    var line := p + LineHead(x);
    var rest := Lines(Remainder(x));
    var tail := Join(EncodeAll(values[1..]), ",") + t;
    JoinFirst(values, t);
    ReadEncodedCell(Render(values[0]), p, "," + tail);
    var c := ReadCell(line, |p|, rest);
    StoppedAtComma(c.next, tail);
    CellsContinue(line, |p|, rest);
    p2 := c.next.line[..c.next.pos];
    NormAllCons(values);
  }

  /** Reading a written row, followed by `t`, gives back all its values and leaves the lines of `t`. */
  lemma {:induction false} ReadEncodedCells(values: seq<Option<string>>, p: string, t: string)
    requires |values| >= 1 && NoBreak(p) && EndsRow(t)
    ensures CellsGive(values, p, t)
    decreases |values|
  {
    if |values| == 1 {
      ReadLastCell(values, p, t);
    } else {
      var p2 := ReadFirstCell(values, p, t);
      ReadEncodedCells(values[1..], p2, t);
    }
  }

  /**
   * Reading back the one row `AppendCsvLine` wrote on an empty builder gives
   * the written values with line breaks normalised, and uses up the text. The
   * only row that does not come back is a single empty value, whose text is
   * empty and so holds no line at all.
   */
  lemma RowRoundTrip(values: seq<Option<string>>)
    requires |values| >= 1
    ensures ReadCsvRow(Lines(AppendCsvLine("", values))) ==
            if |values| == 1 && Render(values[0]) == "" then None else Some(Row(NormAll(values), []))
  {
    var s := AppendCsvLine("", values);
    assert s == Join(EncodeAll(values), ",");
    if |values| == 1 {
      assert s == EncodeCell(Render(values[0]));
    } else {
      assert s == EncodeAll(values)[0] + "," + Join(EncodeAll(values)[1..], ",");
    }
    if s != "" {
      LinesCons(s);
      assert s + "" == s;
      ReadEncodedCells(values, "", "");
      assert "" + LineHead(s) == LineHead(s);
    }
  }

  /** The first row read from a document is its first written row; the rest are the lines of the later rows. */
  lemma DocumentFirstRow(rows: seq<seq<Option<string>>>)
    requires |rows| > 0 && |rows[0]| >= 1
    ensures ReadCsvRow(Lines(Document(rows))) == Some(Row(NormAll(rows[0]), Lines(Document(rows[1..]))))
  {
    var rest := Document(rows[1..]);
    var t := "\r\n" + rest;
    DocumentCons(rows);
    assert Remainder(t) == rest;
    ReadRowBefore(rows[0], t);
  }

  lemma DocumentCons(rows: seq<seq<Option<string>>>)
    requires |rows| > 0
    ensures Document(rows) == Join(EncodeAll(rows[0]), ",") + ("\r\n" + Document(rows[1..]))
  {
    var j := Join(EncodeAll(rows[0]), ",");
    WriteCsvLineJoins(rows[0]);
    BreakBetween(j, Document(rows[1..]));
  }

  lemma BreakBetween(a: string, b: string)
    ensures (a + "\r\n") + b == a + ("\r\n" + b)
  {
  }

  /** A written row followed by a line break is read back, and reading goes on after the break. */
  lemma ReadRowBefore(values: seq<Option<string>>, t: string)
    requires |values| >= 1 && |t| > 0 && IsBreak(t[0])
    ensures ReadCsvRow(Lines(Join(EncodeAll(values), ",") + t)) == Some(Row(NormAll(values), Lines(Remainder(t))))
  {
    var x := Join(EncodeAll(values), ",") + t;
    LinesCons(x);
    ReadEncodedCells(values, "", t);
    assert "" + LineHead(x) == LineHead(x);
  }

  /**
   * Reading the text of successive `WriteCsvLine` calls gives back every
   * written row, in order, with line breaks inside values normalised.
   */
  lemma {:induction false} DocumentRoundTrip(rows: seq<seq<Option<string>>>)
    requires forall i :: 0 <= i < |rows| ==> |rows[i]| >= 1
    ensures ReadAllRows(Lines(Document(rows))) == seq(|rows|, i requires 0 <= i < |rows| => NormAll(rows[i]))
    decreases |rows|
  {
    if |rows| > 0 {
      DocumentFirstRow(rows);
      var source := Lines(Document(rows));
      RowsCons(source);
      DocumentRoundTrip(rows[1..]);
      NormRowsCons(rows);
    }
  }

  lemma NormRowsCons(rows: seq<seq<Option<string>>>)
    requires |rows| > 0
    ensures seq(|rows|, i requires 0 <= i < |rows| => NormAll(rows[i]))
         == [NormAll(rows[0])] + seq(|rows| - 1, i requires 0 <= i < |rows| - 1 => NormAll(rows[1..][i]))
  {
  }

  lemma RowsCons(source: seq<string>)
    requires |source| > 0
    ensures var row := ReadCsvRow(source).value;
      ReadAllRows(source) == [row.cells] + ReadAllRows(row.rest)
  {
  }

  /** Values without a carriage return come back exactly. */
  lemma NormAllUnchanged(values: seq<Option<string>>)
    requires forall i :: 0 <= i < |values| ==> NoCR(Render(values[i]))
    ensures NormAll(values) == seq(|values|, i requires 0 <= i < |values| => Render(values[i]))
  {
    forall i | 0 <= i < |values|
      ensures Norm(Render(values[i])) == Render(values[i])
    {
      NormKeepsNoCR(Render(values[i]));
    }
  }
}

=== FILE: csv_writer.dfy ===
/**
 * The CSV row writer of `ModHelpers`: `AppendCsvLine` and `WriteCsvLine`.
 * A value is quoted only when it holds a comma, a quote or a line break;
 * inside quotes every quote is doubled.
 */
module CsvWriter {
  import opened Nullable
  import opened LineText

  /** The characters of `NeedCsvQuote`: any of them forces a value into quotes. */
  predicate IsQuoteTrigger(c: char) {
    c == ',' || c == '"' || c == '\n' || c == '\r'
  }

  /** `v.IndexOfAny(NeedCsvQuote) >= 0`. */
  predicate NeedsQuote(v: string) {
    exists i :: 0 <= i < |v| && IsQuoteTrigger(v[i])
  }

  /** The number of quotes in `v`. */
  function QuoteCount(v: string): nat {
    if |v| == 0 then 0 else (if v[0] == '"' then 1 else 0) + QuoteCount(v[1..])
  }

  /** Every quote of `s` is one of an adjacent pair `""`, read from the left. */
  predicate QuotesPaired(s: string) {
    if |s| == 0 then true
    else if s[0] == '"' then |s| >= 2 && s[1] == '"' && QuotesPaired(s[2..])
    else QuotesPaired(s[1..])
  }

  /** Reading quoted text back: every `""` collapses to one quote. */
  function Unescape(s: string): string {
    if |s| == 0 then ""
    else if |s| >= 2 && s[0] == '"' && s[1] == '"' then "\"" + Unescape(s[2..])
    else [s[0]] + Unescape(s[1..])
  }

  /** `v.Replace("\"", "\"\"")`: every quote doubled, one character more per quote. */
  function EscapeQuotes(v: string): (r: string)
    ensures |r| == |v| + QuoteCount(v)
  {
    if |v| == 0 then ""
    else (if v[0] == '"' then "\"\"" else [v[0]]) + EscapeQuotes(v[1..])
  }

  /**
   * The escaped text holds its quotes only in adjacent pairs, and collapsing
   * the pairs gives the value back.
   */
  lemma {:induction false} EscapeQuotesPairs(v: string)
    ensures QuotesPaired(EscapeQuotes(v))
    ensures Unescape(EscapeQuotes(v)) == v
  {
    if |v| > 0 {
      EscapeQuotesPairs(v[1..]);
      var rest := EscapeQuotes(v[1..]);
      var e := EscapeQuotes(v);
      if v[0] == '"' {
        assert e == "\"\"" + rest;
        assert e[2..] == rest;
      } else {
        assert e == [v[0]] + rest;
        assert e[1..] == rest;
      }
      assert v == [v[0]] + v[1..];
    }
  }

  /** `val?.ToString() ?? "null"` for the string values this core writes. */
  function Render(v: Option<string>): string {
    match v
    case Some(text) => text
    case None => "null"
  }

  /** One value as it appears in a written row. */
  function EncodeCell(v: string): (r: string)
    ensures NeedsQuote(v) <==> (|r| >= 2 && r[0] == '"' && r[|r| - 1] == '"')
    ensures !NeedsQuote(v) ==> r == v
    ensures NeedsQuote(v) ==> r[1..|r| - 1] == EscapeQuotes(v)
  {
    if NeedsQuote(v) then "\"" + EscapeQuotes(v) + "\"" else v
  }

  function EncodeAll(values: seq<Option<string>>): seq<string> {
    seq(|values|, i requires 0 <= i < |values| => EncodeCell(Render(values[i])))
  }

  /** What the `foreach` of `AppendCsvLine` appends: every encoded value followed by a comma. */
  function CellsWithCommas(values: seq<Option<string>>): string {
    if |values| == 0 then ""
    else EncodeCell(Render(values[0])) + "," + CellsWithCommas(values[1..])
  }

  lemma {:induction false} CellsWithCommasJoin(values: seq<Option<string>>)
    requires |values| > 0
    ensures CellsWithCommas(values) == Join(EncodeAll(values), ",") + ","
    decreases |values|
  {
    if |values| > 1 {
      CellsWithCommasJoin(values[1..]);
      assert EncodeAll(values)[1..] == EncodeAll(values[1..]);
    }
  }

  /**
   * `AppendCsvLine(buf, values)`: starts a new line when the builder is not
   * empty, then appends every encoded value and a comma, and drops the last comma.
   * The result is the encoded values joined by single commas.
   */
  function AppendCsvLine(buf: string, values: seq<Option<string>>): (r: string)
    ensures r == (if |buf| > 0 then buf + "\r\n" else "") + Join(EncodeAll(values), ",")
  {
    var started := if |buf| > 0 then buf + "\r\n" else buf;
    var appended := started + CellsWithCommas(values);
    if |values| > 0 then
      CellsWithCommasJoin(values);
      appended[..|appended| - 1]
    else appended
  }

  /** `WriteCsvLine(values)`: the text written, a row on a fresh builder followed by "\r\n". */
  function WriteCsvLine(values: seq<Option<string>>): string {
    AppendCsvLine("", values) + "\r\n"
  }

  /** A written line is the encoded values joined by commas, ended by "\r\n". */
  lemma WriteCsvLineJoins(values: seq<Option<string>>)
    ensures WriteCsvLine(values) == Join(EncodeAll(values), ",") + "\r\n"
  {
  }

  /** The text of successive `WriteCsvLine` calls on one writer. */
  function Document(rows: seq<seq<Option<string>>>): string {
    if |rows| == 0 then "" else WriteCsvLine(rows[0]) + Document(rows[1..])
  }
}

=== FILE: hue_patcher.dfy ===
/**
 * `HuePatcher.OverrideLanguage` and the entry point `OverrideLocalizedText`:
 * every content line of the game's localisation table is rewritten as the
 * two-cell row (key, text), where the text is the loaded translation when
 * there is one and otherwise the line's own second cell.
 *
 * The game's `string[]` is passed in and returned as a sequence; the CSV
 * text `LoadData` returns is a parameter.
 */
module HuePatcher {
  import opened Nullable
  import opened LineText
  import opened CsvWriter
  import opened CsvReader
  import opened CsvRoundTrip
  import opened HueTable

  /** The cells of one game line, read by a fresh `StringReader`; None for an empty line. */
  function LineCells(line: string): Option<seq<string>> {
    match ReadCsvRow(Lines(line))
    case None => None
    case Some(row) => Some(row.cells)
  }

  /** The key of a line the merge rewrites: the first cell of a row of at least two cells, when it is not empty. */
  function LineKey(line: string): Option<string> {
    match LineCells(line)
    case None => None
    case Some(cells) => if |cells| <= 1 || |cells[0]| == 0 then None else Some(cells[0])
  }

  /** The text kept for an untranslated line: its own second cell, or "?" when that is empty. */
  function Fallback(cells: seq<string>): string
    requires |cells| >= 2
  {
    if |cells[1]| == 0 then "?" else cells[1]
  }

  /** The row written for `key` and `text` on a fresh `StringBuilder`. */
  function KeyRow(key: string, text: string): string {
    AppendCsvLine("", [Some(key), Some(text)])
  }

  /** One turn of the merge loop: the new content of a line. */
  function RewriteLine(line: string, m: map<string, string>): string {
    match LineCells(line)
    case None => line
    case Some(cells) =>
      if |cells| <= 1 || |cells[0]| == 0 then line
      else
        var key := cells[0];
        KeyRow(key, if key in m then m[key] else Fallback(cells))
  }

  /** `lines` with every line after the first replaced by its image under `f`. */
  function MapAfterHead(lines: seq<string>, f: string -> string): (r: seq<string>)
    ensures |r| == |lines|
    ensures |lines| > 0 ==> r[0] == lines[0]
    decreases |lines|
  {
    if |lines| <= 1 then lines
    else MapAfterHead(lines[..|lines| - 1], f) + [f(lines[|lines| - 1])]
  }

  /** Each line after the first is mapped on its own. */
  lemma {:induction false} MapAfterHeadAt(lines: seq<string>, f: string -> string, j: int)
    requires 1 <= j < |lines|
    ensures MapAfterHead(lines, f)[j] == f(lines[j])
    decreases |lines|
  {
    var init := lines[..|lines| - 1];
    if j < |lines| - 1 {
      MapAfterHeadAt(init, f, j);
      assert init[j] == lines[j];
    }
  }

  function Rewriter(m: map<string, string>): string -> string {
    line => RewriteLine(line, m)
  }

  /** The lines after the merge loop: the header line stays, every other line is rewritten. */
  function Merge(lines: seq<string>, m: map<string, string>): seq<string> {
    MapAfterHead(lines, Rewriter(m))
  }

  /** The merge keeps the header line and rewrites every other line on its own. */
  lemma MergeIndex(lines: seq<string>, m: map<string, string>, j: int)
    requires 0 <= j < |lines|
    ensures |Merge(lines, m)| == |lines|
    ensures j == 0 ==> Merge(lines, m)[j] == lines[j]
    ensures j >= 1 ==> Merge(lines, m)[j] == RewriteLine(lines[j], m)
  {
    if j >= 1 {
      MapAfterHeadAt(lines, Rewriter(m), j);
    }
  }

  /** Every line after the header is rewritten on its own. */
  lemma MergeAt(lines: seq<string>, m: map<string, string>)
    ensures forall j :: 1 <= j < |lines| ==> Merge(lines, m)[j] == RewriteLine(lines[j], m)
  {
    forall j | 1 <= j < |lines|
      ensures Merge(lines, m)[j] == RewriteLine(lines[j], m)
    {
      MergeIndex(lines, m, j);
    }
  }

  predicate IsTranslated(line: string, m: map<string, string>) {
    LineKey(line).Some? && LineKey(line).value in m
  }

  /** How many of the lines from index `from` on have a key with a translation. */
  function TranslatedCount(lines: seq<string>, m: map<string, string>, from: nat): nat
    decreases |lines| - from
  {
    if from >= |lines| then 0
    else (if IsTranslated(lines[from], m) then 1 else 0) + TranslatedCount(lines, m, from + 1)
  }

  /** What `OverrideLanguage` reports: it gave up on a too small table, or it updated `count` translated lines. */
  datatype MergeOutcome = TooFewEntries | Updated(count: nat)

  /** The lines as `OverrideLanguage` leaves them. */
  function MergeResult(lines: seq<string>, data: string): seq<string> {
    var m := BuildTable(data).translated;
    if |m| <= 1 then lines else Merge(lines, m)
  }

  /**
   * `OverrideLanguage(lines)` with `LoadData()` = `data`: with at most one
   * translation it changes nothing; otherwise it merges the translations into
   * the lines and reports how many lines it translated.
   */
  method OverrideLanguage(lines: seq<string>, data: string) returns (result: seq<string>, outcome: MergeOutcome)
    ensures var m := BuildTable(data).translated;
      && (outcome.TooFewEntries? <==> |m| <= 1)
      && |result| == |lines|
      && result == MergeResult(lines, data)
      && (outcome.Updated? ==> outcome.count == TranslatedCount(lines, m, 1))
  {
    var m := BuildTable(data).translated;
    if |m| <= 1 {
      return lines, TooFewEntries;
    }
    var count;
    result, count := MergeLines(lines, m);
    outcome := Updated(count);
  }

  /**
   * The merge loop of `OverrideLanguage`: it walks the lines from the last
   * down to index 1, rewriting each, and counts the lines it translated.
   */
  method MergeLines(lines: seq<string>, m: map<string, string>) returns (result: seq<string>, count: nat)
    ensures |result| == |lines|
    ensures result == Merge(lines, m)
    ensures count == TranslatedCount(lines, m, 1)
  {
    ghost var flags := TranslationFlags(lines, m);
    result, count := RewriteBackwards(lines, m, flags);
    MergePointwise(lines, m, result);
    CountFlags(lines, m, flags, 1);
  }

  /** The loop itself, with the translated lines given as `flags`. */
  method RewriteBackwards(lines: seq<string>, m: map<string, string>, ghost flags: seq<bool>)
    returns (result: seq<string>, count: nat)
    requires |flags| == |lines|
    requires forall j {:trigger IsTranslated(lines[j], m)} :: 0 <= j < |lines| ==> (flags[j] <==> IsTranslated(lines[j], m))
    ensures |result| == |lines| && (|lines| > 0 ==> result[0] == lines[0])
    ensures forall j {:trigger RewriteLine(lines[j], m)} :: 1 <= j < |lines| ==> result[j] == RewriteLine(lines[j], m)
    ensures count == CountTrue(flags, 1)
  {
    result := lines;
    count := 0;
    var i := |lines| - 1;
    while i >= 1
      invariant -1 <= i < |lines| && (i == -1 ==> |lines| == 0)
      invariant |result| == |lines|
      invariant forall j :: 0 <= j <= i ==> result[j] == lines[j]
      invariant forall j {:trigger RewriteLine(lines[j], m)} :: i < j < |lines| ==> result[j] == RewriteLine(lines[j], m)
      invariant count == CountTrue(flags, i + 1)
      decreases i
    {
      result, count := RewriteAt(lines, m, flags, result, count, i);
      i := i - 1;
    }
  }

  /** One turn of the loop: line `i` is rewritten and counted when it was translated. */
  method RewriteAt(lines: seq<string>, m: map<string, string>, ghost flags: seq<bool>,
                   result: seq<string>, count: nat, i: int)
    returns (result': seq<string>, count': nat)
    requires |flags| == |lines| && |result| == |lines| && 1 <= i < |lines|
    requires forall j {:trigger IsTranslated(lines[j], m)} :: 0 <= j < |lines| ==> (flags[j] <==> IsTranslated(lines[j], m))
    requires count == CountTrue(flags, i + 1)
    ensures result' == result[i := RewriteLine(lines[i], m)]
    ensures count' == CountTrue(flags, i)
  {
    var line, translated := RewriteOne(lines[i], m);
    assert flags[i] == translated;
    count' := if translated then count + 1 else count;
    result' := result[i := line];
  }

  /** How many of `flags` from index `from` on are set. */
  function CountTrue(flags: seq<bool>, from: nat): nat
    decreases |flags| - from
  {
    if from >= |flags| then 0 else (if flags[from] then 1 else 0) + CountTrue(flags, from + 1)
  }

  /** Which lines have a key with a translation; the link to each line is made only on demand. */
  lemma TranslationFlags(lines: seq<string>, m: map<string, string>) returns (flags: seq<bool>)
    ensures |flags| == |lines|
    ensures forall j {:trigger IsTranslated(lines[j], m)} :: 0 <= j < |lines| ==> (flags[j] <==> IsTranslated(lines[j], m))
  {
    flags := seq(|lines|, j requires 0 <= j < |lines| => IsTranslated(lines[j], m));
  }

  /** Counting the flags of the translated lines counts the translated lines. */
  lemma {:induction false} CountFlags(lines: seq<string>, m: map<string, string>, flags: seq<bool>, from: nat)
    requires |flags| == |lines|
    requires forall j {:trigger IsTranslated(lines[j], m)} :: 0 <= j < |lines| ==> (flags[j] <==> IsTranslated(lines[j], m))
    ensures CountTrue(flags, from) == TranslatedCount(lines, m, from)
    decreases |lines| - from
  {
    if from < |lines| {
      assert flags[from] <==> IsTranslated(lines[from], m);
      CountFlags(lines, m, flags, from + 1);
    }
  }

  /** Lines that agree with the merge at every index are the merge. */
  lemma MergePointwise(lines: seq<string>, m: map<string, string>, result: seq<string>)
    requires |result| == |lines| && (|lines| > 0 ==> result[0] == lines[0])
    requires forall j {:trigger RewriteLine(lines[j], m)} :: 1 <= j < |lines| ==> result[j] == RewriteLine(lines[j], m)
    ensures result == Merge(lines, m)
  {
    MergeAt(lines, m);
  }

  /**
   * The body of the merge loop for one line: lines that read as fewer than
   * two cells or with an empty key are kept, others become (key, text).
   */
  method RewriteOne(line: string, m: map<string, string>) returns (r: string, translated: bool)
    ensures r == RewriteLine(line, m)
    ensures translated <==> IsTranslated(line, m)
  {
    var cells := LineCells(line);
    RewriteStep(line, m);
    r, translated := line, false;
    if cells.Some? && |cells.value| > 1 && |cells.value[0]| > 0 {
      var key := cells.value[0];
      var text;
      if key in m {
        text := m[key];
        translated := true;
      } else {
        text := Fallback(cells.value);
      }
      r := KeyRow(key, text);
    }
  }

  /** What one turn of the merge loop does with a line, in terms of its key. */
  lemma RewriteStep(line: string, m: map<string, string>)
    ensures var cells := LineCells(line);
      if cells.Some? && |cells.value| > 1 && |cells.value[0]| > 0 then
        var key := cells.value[0];
        && LineKey(line) == Some(key)
        && (IsTranslated(line, m) <==> key in m)
        && RewriteLine(line, m) == KeyRow(key, if key in m then m[key] else Fallback(cells.value))
      else
        LineKey(line).None? && !IsTranslated(line, m) && RewriteLine(line, m) == line
  {
  }

  /** Lines of a single game line hold no carriage return, and neither do the cells read from them. */
  lemma LineCellsNoCR(line: string)
    requires LineCells(line).Some?
    ensures AllNoCR(LineCells(line).value)
  {
    LinesNoBreak(line);
    RowKeepsNoCR(Lines(line));
  }

  /** A two-cell row of texts without '\r' is read back exactly. */
  lemma KeyRowReadsBack(key: string, text: string)
    requires NoCR(key) && NoCR(text)
    ensures LineCells(KeyRow(key, text)) == Some([key, text])
  {
    var values := [Some(key), Some(text)];
    RowRoundTrip(values);
    NormKeepsNoCR(key);
    NormKeepsNoCR(text);
    assert NormAll(values) == [key, text];
  }

  /** The text a rewritten line gets; without a carriage return when the translations have none. */
  lemma TextNoCR(cells: seq<string>, m: map<string, string>)
    requires |cells| >= 2 && AllNoCR(cells)
    requires forall k :: k in m ==> NoCR(m[k])
    ensures NoCR(if cells[0] in m then m[cells[0]] else Fallback(cells))
  {
    assert NoCR(cells[1]);
  }

  /**
   * A rewritten line reads back as exactly two cells: its key and the
   * translation, or else its own second cell ("?" when that was empty).
   */
  lemma RewriteReadsBack(line: string, m: map<string, string>)
    requires forall k :: k in m ==> NoCR(m[k])
    requires LineKey(line).Some?
    ensures var key := LineKey(line).value;
      var cells := LineCells(line).value;
      LineCells(RewriteLine(line, m)) == Some([key, if key in m then m[key] else Fallback(cells)])
  {
    var cells := LineCells(line).value;
    LineCellsNoCR(line);
    TextNoCR(cells, m);
    KeyRowReadsBack(cells[0], if cells[0] in m then m[cells[0]] else Fallback(cells));
  }

  /** Rewriting keeps every line's key, so key order and line count stay as they were. */
  lemma RewriteKeepsKey(line: string, m: map<string, string>)
    ensures LineKey(RewriteLine(line, m)) == LineKey(line)
  {
    if LineKey(line).Some? {
      var cells := LineCells(line).value;
      var key := cells[0];
      var text := if key in m then m[key] else Fallback(cells);
      var values := [Some(key), Some(text)];
      RowRoundTrip(values);
      LineCellsNoCR(line);
      NormKeepsNoCR(key);
      assert NormAll(values)[0] == key;
    }
  }

  /** A line that is rewritten once is not changed by rewriting it again with the same translations. */
  lemma RewriteIdempotent(line: string, m: map<string, string>)
    requires forall k :: k in m ==> NoCR(m[k])
    ensures RewriteLine(RewriteLine(line, m), m) == RewriteLine(line, m)
  {
    if LineKey(line).Some? {
      var cells := LineCells(line).value;
      var key := cells[0];
      var text := if key in m then m[key] else Fallback(cells);
      RewriteReadsBack(line, m);
      assert LineCells(RewriteLine(line, m)) == Some([key, text]);
      if key !in m {
        assert |text| > 0;
        assert Fallback([key, text]) == text;
      }
    }
  }

  /** The merge keeps the number of lines, the header line and the key of every line. */
  lemma MergeKeepsKeys(lines: seq<string>, m: map<string, string>)
    ensures |Merge(lines, m)| == |lines|
    ensures |lines| > 0 ==> Merge(lines, m)[0] == lines[0]
    ensures forall i :: 0 <= i < |lines| ==> LineKey(Merge(lines, m)[i]) == LineKey(lines[i])
  {
    forall i | 0 <= i < |lines|
      ensures LineKey(Merge(lines, m)[i]) == LineKey(lines[i])
    {
      MergeKeepsKey(lines, m, i);
    }
  }

  lemma MergeKeepsKey(lines: seq<string>, m: map<string, string>, i: int)
    requires 0 <= i < |lines|
    ensures LineKey(Merge(lines, m)[i]) == LineKey(lines[i])
  {
    MergeIndex(lines, m, i);
    if i >= 1 {
      RewriteKeepsKey(lines[i], m);
    }
  }

  /** The merge keeps every key, so it keeps which lines count as translated. */
  lemma {:induction false} MergeKeepsCount(lines: seq<string>, m: map<string, string>, from: nat)
    ensures TranslatedCount(Merge(lines, m), m, from) == TranslatedCount(lines, m, from)
    decreases |lines| - from
  {
    if from < |lines| {
      MergeKeepsKey(lines, m, from);
      MergeKeepsCount(lines, m, from + 1);
    }
  }

  /** Lines without a key of their own are left exactly as they were. */
  lemma MergeLeavesKeylessLines(lines: seq<string>, m: map<string, string>)
    ensures forall i :: 0 <= i < |lines| && LineKey(lines[i]).None? ==> Merge(lines, m)[i] == lines[i]
  {
    MergeAt(lines, m);
  }

  /** Translations loaded from the data hold no carriage return. */
  lemma TableHasNoCR(data: string)
    ensures forall k :: k in BuildTable(data).translated ==> NoCR(BuildTable(data).translated[k])
  {
    TranslationsAreSingleLine(ReadAllRows(Lines(data)));
  }

  /** Running the merge a second time with the same data leaves the lines as the first run left them. */
  lemma MergeTwice(lines: seq<string>, data: string)
    ensures MergeResult(MergeResult(lines, data), data) == MergeResult(lines, data)
  {
    var m := BuildTable(data).translated;
    if |m| > 1 {
      TableHasNoCR(data);
      var once := Merge(lines, m);
      forall i | 1 <= i < |lines|
        ensures once[i] == RewriteLine(once[i], m)
      {
        MergeIndex(lines, m, i);
        RewriteIdempotent(lines[i], m);
      }
      MergePointwise(once, m, once);
    }
  }

  /**
   * `OverrideLanguage` run a second time on its own output with the same data
   * leaves the lines as they are and reports the same outcome.
   */
  method OverrideLanguageTwice(lines: seq<string>, data: string)
    returns (once: seq<string>, first: MergeOutcome, twice: seq<string>, second: MergeOutcome)
    ensures once == MergeResult(lines, data)
    ensures twice == once && second == first
  {
    once, first := OverrideLanguage(lines, data);
    twice, second := OverrideLanguage(once, data);
    MergeTwice(lines, data);
    var m := BuildTable(data).translated;
    if |m| > 1 {
      MergeKeepsCount(lines, m, 1);
    }
  }

  /** The game state the entry point reads and writes: the line table (null allowed), the language index and name. */
  datatype Game = Game(lines: Option<seq<string>>, languageID: int, selectedLanguage: string)

  /**
   * `OverrideLocalizedText`: a missing table or one of at most one line is
   * left alone. Otherwise the language index becomes 1; if the language is
   * already "chinese" nothing else changes, and else the merge runs and the
   * language name and header line are switched to Chinese, whether or not the
   * merge gave up.
   */
  function OverrideLocalizedText(g: Game, data: string): (r: Game)
    ensures g.lines.None? || |g.lines.value| <= 1 ==> r == g
    ensures g.lines.Some? && |g.lines.value| > 1 ==>
      && r.languageID == 1
      && r.lines.Some? && |r.lines.value| == |g.lines.value|
      && (g.selectedLanguage == "chinese" ==> r.lines == g.lines && r.selectedLanguage == "chinese")
      && (g.selectedLanguage != "chinese" ==>
            && r.selectedLanguage == "chinese"
            && r.lines.value[0] == "Column,chinese"
            && r.lines.value[1..] == MergeResult(g.lines.value, data)[1..])
  {
    match g.lines
    case None => g
    case Some(lines) =>
      if |lines| <= 1 then g
      else if g.selectedLanguage == "chinese" then g.(languageID := 1)
      else Game(Some(MergeResult(lines, data)[0 := "Column,chinese"]), 1, "chinese")
  }

  /** Calling the entry point again, as the game does on every language switch, changes nothing more. */
  lemma OverrideLocalizedTextTwice(g: Game, data: string)
    ensures OverrideLocalizedText(OverrideLocalizedText(g, data), data) == OverrideLocalizedText(g, data)
  {
  }
}

=== FILE: hue_table.dfy ===
/**
 * The translation table `HuePatcher.OverrideLanguage` builds from its CSV
 * data before touching the game's lines: a map from key to single-line
 * text, and the set of keys whose translation cell is empty ("keep
 * original").
 */
module HueTable {
  import opened LineText
  import opened CsvReader

  datatype Table = Table(translated: map<string, string>, keepOriginal: set<string>)

  /** `text.Replace('\r', ' ').Replace('\n', ' ')`. */
  function SingleLine(text: string): string {
    seq(|text|, i requires 0 <= i < |text| => if IsBreak(text[i]) then ' ' else text[i])
  }

  /**
   * The flattened text has the same length, holds no line break, and keeps
   * every other character where it was; text already on one line is kept as is.
   */
  lemma SingleLineFlattens(text: string)
    ensures |SingleLine(text)| == |text| && NoBreak(SingleLine(text))
    ensures forall i :: 0 <= i < |text| && !IsBreak(text[i]) ==> SingleLine(text)[i] == text[i]
    ensures NoBreak(text) ==> SingleLine(text) == text
  {
  }

  /** The rows the load loop skips: fewer than two cells, an empty key, or the exact English header. */
  predicate Skipped(cells: seq<string>) {
    |cells| < 2 || |cells[0]| == 0 || (cells[0] == "Column" && cells[1] == "english")
  }

  /** Row `i` gives `key` a translation. */
  predicate Translates(rows: seq<seq<string>>, i: int, key: string) {
    0 <= i < |rows| && !Skipped(rows[i]) && rows[i][0] == key && |rows[i][1]| > 0
  }

  /** Row `i` marks `key` to keep its original text. */
  predicate KeepsOriginal(rows: seq<seq<string>>, i: int, key: string) {
    0 <= i < |rows| && !Skipped(rows[i]) && rows[i][0] == key && |rows[i][1]| == 0
  }

  /** One turn of the load loop. */
  function AddRow(t: Table, cells: seq<string>): Table {
    if Skipped(cells) then t
    else if |cells[1]| == 0 then t.(keepOriginal := t.keepOriginal + {cells[0]})
    else t.(translated := t.translated[cells[0] := SingleLine(cells[1])])
  }

  /** The table after the load loop has seen `rows`, in order. */
  function Collect(rows: seq<seq<string>>): Table
    decreases |rows|
  {
    if |rows| == 0 then Table(map[], {})
    else AddRow(Collect(rows[..|rows| - 1]), rows[|rows| - 1])
  }

  /** The table built from the CSV text `LoadData` returns. */
  function BuildTable(data: string): Table {
    Collect(ReadAllRows(Lines(data)))
  }

  /** A key is translated exactly when some row gives it a non-empty translation cell. */
  lemma {:induction false} TranslatedKeys(rows: seq<seq<string>>, key: string)
    ensures key in Collect(rows).translated <==> exists i :: Translates(rows, i, key)
    decreases |rows|
  {
    if |rows| > 0 {
      var init := rows[..|rows| - 1];
      TranslatedKeys(init, key);
      if exists i :: Translates(init, i, key) {
        var i :| Translates(init, i, key);
        assert Translates(rows, i, key);
      }
      if Translates(rows, |rows| - 1, key) {
        assert exists i :: Translates(rows, i, key);
      }
      if exists i :: Translates(rows, i, key) {
        var i :| Translates(rows, i, key);
        if i < |rows| - 1 {
          assert Translates(init, i, key);
        }
      }
    }
  }

  /** A key is kept original exactly when some row leaves its translation cell empty. */
  lemma {:induction false} KeptKeys(rows: seq<seq<string>>, key: string)
    ensures key in Collect(rows).keepOriginal <==> exists i :: KeepsOriginal(rows, i, key)
    decreases |rows|
  {
    if |rows| > 0 {
      var init := rows[..|rows| - 1];
      KeptKeys(init, key);
      if exists i :: KeepsOriginal(init, i, key) {
        var i :| KeepsOriginal(init, i, key);
        assert KeepsOriginal(rows, i, key);
      }
      if KeepsOriginal(rows, |rows| - 1, key) {
        assert exists i :: KeepsOriginal(rows, i, key);
      }
      if exists i :: KeepsOriginal(rows, i, key) {
        var i :| KeepsOriginal(rows, i, key);
        if i < |rows| - 1 {
          assert KeepsOriginal(init, i, key);
        }
      }
    }
  }

  /** The translation of a key comes from the last row that translates it, flattened to one line. */
  lemma {:induction false} LastRowWins(rows: seq<seq<string>>, j: int, key: string)
    requires Translates(rows, j, key)
    requires forall i :: j < i < |rows| ==> !Translates(rows, i, key)
    ensures key in Collect(rows).translated
    ensures Collect(rows).translated[key] == SingleLine(rows[j][1])
    decreases |rows|
  {
    var init := rows[..|rows| - 1];
    if j < |rows| - 1 {
      assert Translates(init, j, key);
      forall i | j < i < |init|
        ensures !Translates(init, i, key)
      {
        assert !Translates(rows, i, key);
      }
      LastRowWins(init, j, key);
      assert !Translates(rows, |rows| - 1, key);
    }
  }

  /** Every translation is a single line of text, and never empty. */
  lemma {:induction false} TranslationsAreSingleLine(rows: seq<seq<string>>)
    ensures forall k :: k in Collect(rows).translated ==>
      NoBreak(Collect(rows).translated[k]) && |Collect(rows).translated[k]| > 0
    decreases |rows|
  {
    if |rows| > 0 {
      TranslationsAreSingleLine(rows[..|rows| - 1]);
      var cells := rows[|rows| - 1];
      if !Skipped(cells) && |cells[1]| > 0 {
        SingleLineFlattens(cells[1]);
      }
    }
  }

  /**
   * Nothing stops a key from being both translated and kept original: a row
   * with an empty translation and a later one with a translation give both.
   */
  lemma KeyInBothSets()
    ensures var t := Collect([["intro", ""], ["intro", "hi"]]);
      "intro" in t.translated && "intro" in t.keepOriginal
  {
    var rows := [["intro", ""], ["intro", "hi"]];
    assert rows[..1] == [["intro", ""]];
    assert rows[..1][..0] == [];
  }

  /** Only the exact English header is skipped: a "Column" row with another translation is loaded. */
  lemma OnlyEnglishHeaderSkipped()
    ensures Collect([["Column", "english"]]).translated == map[]
    ensures "Column" in Collect([["Column", "chinese"]]).translated
  {
    assert [["Column", "english"]][..0] == [];
    assert [["Column", "chinese"]][..0] == [];
  }
}

=== FILE: ini.dfy ===
/**
 * The line format of `IniConfig`: `_WriteData` writes an optional comment
 * line and a `name = value` line per field, quoting values with surrounding
 * whitespace; `_ReadFile` splits each line at its first '=', ignores lines
 * starting with ';', trims both sides and strips one pair of quotes.
 *
 * Field lookup by reflection becomes a set of writable field names, and
 * parsing a value into the field's type is left to the caller: a setting is
 * the field name and the value text.
 */
module Ini {
  import opened Nullable
  import opened LineText

  /** `Char.IsWhiteSpace`: the white space characters `String.Trim` removes from .NET 4 on. */
  predicate IsWhite(c: char) {
    var n := c as int;
    n == 0x20 || 0x09 <= n <= 0x0D || n == 0x85 || n == 0xA0 || n == 0x1680
    || 0x2000 <= n <= 0x200A || n == 0x2028 || n == 0x2029 || n == 0x202F
    || n == 0x205F || n == 0x3000
  }

  /** Neither end of `s` is white space (an empty `s` qualifies). */
  predicate Trimmed(s: string) {
    |s| == 0 || (!IsWhite(s[0]) && !IsWhite(s[|s| - 1]))
  }

  function TrimStart(s: string): string {
    if |s| > 0 && IsWhite(s[0]) then TrimStart(s[1..]) else s
  }

  function TrimEnd(s: string): string {
    if |s| > 0 && IsWhite(s[|s| - 1]) then TrimEnd(s[..|s| - 1]) else s
  }

  /** `String.Trim()`. */
  function Trim(s: string): string {
    TrimEnd(TrimStart(s))
  }

  /** TrimStart drops a white prefix: what is left is a suffix that does not start with white space. */
  lemma {:induction false} TrimStartSuffix(s: string)
    ensures |TrimStart(s)| <= |s| && TrimStart(s) == s[|s| - |TrimStart(s)|..]
    ensures |TrimStart(s)| == 0 || !IsWhite(TrimStart(s)[0])
    ensures forall i :: 0 <= i < |s| - |TrimStart(s)| ==> IsWhite(s[i])
  {
    if |s| > 0 && IsWhite(s[0]) {
      TrimStartSuffix(s[1..]);
    }
  }

  /** TrimEnd drops a white suffix: what is left is a prefix that does not end with white space. */
  lemma {:induction false} TrimEndPrefix(s: string)
    ensures |TrimEnd(s)| <= |s| && TrimEnd(s) == s[..|TrimEnd(s)|]
    ensures |TrimEnd(s)| == 0 || !IsWhite(TrimEnd(s)[|TrimEnd(s)| - 1])
    ensures forall i :: |TrimEnd(s)| <= i < |s| ==> IsWhite(s[i])
  {
    if |s| > 0 && IsWhite(s[|s| - 1]) {
      TrimEndPrefix(s[..|s| - 1]);
    }
  }

  /** A trimmed text does not start with white space, so trimming its end keeps its start. */
  lemma TrimEndKeepsStart(s: string)
    requires |s| == 0 || !IsWhite(s[0])
    ensures |TrimEnd(s)| == 0 || !IsWhite(TrimEnd(s)[0])
  {
    TrimEndPrefix(s);
  }

  /** Trimming leaves no white space at either end. */
  lemma TrimIsTrimmed(s: string)
    ensures Trimmed(Trim(s))
  {
    TrimStartSuffix(s);
    TrimEndKeepsStart(TrimStart(s));
    TrimEndPrefix(TrimStart(s));
  }

  /** `Trim` changes exactly the texts with white space at an end. */
  lemma TrimUnchanged(s: string)
    ensures Trim(s) == s <==> Trimmed(s)
  {
    TrimIsTrimmed(s);
  }

  /** Trimming twice is trimming once. */
  lemma TrimIdempotent(s: string)
    ensures Trim(Trim(s)) == Trim(s)
  {
    TrimIsTrimmed(s);
    TrimUnchanged(Trim(s));
  }

  /** Leading white space does not change the trimmed text. */
  lemma TrimSkipsLeadingSpace(s: string)
    ensures Trim(" " + s) == Trim(s)
  {
    assert (" " + s)[1..] == s;
  }

  /** Trailing white space after a text that does not end in white space is trimmed away. */
  lemma TrimSkipsTrailingSpace(s: string)
    requires Trimmed(s) && |s| > 0
    ensures Trim(s + " ") == s
  {
    assert TrimStart(s + " ") == s + " ";
    assert (s + " ")[..|s|] == s;
    assert TrimEnd(s + " ") == TrimEnd(s);
  }

  /** The text between a pair of quotes that `_ReadFile` strips. */
  predicate Wrapped(v: string) {
    |v| > 1 && v[0] == '"' && v[|v| - 1] == '"'
  }

  function Unquote(v: string): (r: string) {
    if Wrapped(v) then v[1..|v| - 1] else v
  }

  /** `line.Split(new char[]{ '=' }, 2)`: the whole line, or the text before and after its first '='. */
  function SplitOnce(line: string): (r: seq<string>)
    ensures |r| == 1 || |r| == 2
  {
    var i := IndexOf(line, '=', 0);
    if i < 0 then [line] else [line[..i], line[i + 1..]]
  }

  /** The split is at the first '=' and loses nothing: a line without '=' stays whole. */
  lemma SplitAtFirstEquals(line: string)
    ensures var r := SplitOnce(line);
      (|r| == 1 <==> Lacks(line, '=')) && (|r| == 1 ==> r[0] == line)
      && (|r| == 2 ==> Lacks(r[0], '=') && line == r[0] + "=" + r[1])
  {
    IndexOfFirst(line, '=', 0);
    var i := IndexOf(line, '=', 0);
    if i >= 0 {
      assert line == line[..i] + "=" + line[i + 1..];
    }
  }

  /** A field name and the value text `_ReadFile` hands to `_SetField`. */
  datatype Setting = Setting(name: string, value: string)

  /**
   * One line of `_ReadFile`: lines without '=', comment lines and lines
   * whose name is not a writable field give nothing.
   */
  function ReadIniLine(line: string, fields: set<string>): (r: Option<Setting>)
    ensures Lacks(line, '=') || (|line| > 0 && line[0] == ';') ==> r.None?
    ensures r.Some? ==> r.value.name in fields && Trimmed(r.value.name)
  {
    SplitAtFirstEquals(line);
    var split := SplitOnce(line);
    if |split| != 2 || (|line| > 0 && line[0] == ';') || Trim(split[0]) !in fields then None
    else
      TrimIsTrimmed(split[0]);
      Some(Setting(Trim(split[0]), Unquote(Trim(split[1]))))
  }

  /** The settings after `_SetField` has been called for each of `found` in order: a later one overrides an earlier one. */
  function Assign(found: seq<Option<Setting>>): map<string, string>
    decreases |found|
  {
    if |found| == 0 then map[]
    else
      var before := Assign(found[..|found| - 1]);
      match found[|found| - 1]
      case None => before
      case Some(s) => before[s.name := s.value]
  }

  /** What each line of a file sets. */
  function Parse(lines: seq<string>, fields: set<string>): (r: seq<Option<Setting>>)
    ensures |r| == |lines|
    ensures forall i :: 0 <= i < |lines| ==> r[i] == ReadIniLine(lines[i], fields)
  {
    seq(|lines|, i requires 0 <= i < |lines| => ReadIniLine(lines[i], fields))
  }

  /** `_ReadFile` on the lines of a file. */
  function ReadIni(lines: seq<string>, fields: set<string>): map<string, string> {
    Assign(Parse(lines, fields))
  }

  /** `_ReadFile` on the file's text, split as `File.ReadAllLines` does. */
  function ReadIniFile(text: string, fields: set<string>): map<string, string> {
    ReadIni(Lines(text), fields)
  }

  /** Entry `i` sets field `name`. */
  predicate Sets(found: seq<Option<Setting>>, i: int, name: string) {
    0 <= i < |found| && found[i].Some? && found[i].value.name == name
  }

  /** A field is set exactly when some line sets it. */
  lemma {:induction false} AssignKeys(found: seq<Option<Setting>>, name: string)
    ensures name in Assign(found) <==> exists i :: Sets(found, i, name)
    decreases |found|
  {
    if |found| > 0 {
      var init := found[..|found| - 1];
      AssignKeys(init, name);
      if exists i :: Sets(init, i, name) {
        var i :| Sets(init, i, name);
        assert Sets(found, i, name);
      }
      if Sets(found, |found| - 1, name) {
        assert exists i :: Sets(found, i, name);
      }
      if exists i :: Sets(found, i, name) {
        var i :| Sets(found, i, name);
        if i < |found| - 1 {
          assert Sets(init, i, name);
        }
      }
    }
  }

  /** A field's value is the one from the last line that sets it. */
  lemma {:induction false} AssignLastWins(found: seq<Option<Setting>>, i: int, name: string)
    requires Sets(found, i, name)
    requires forall j :: i < j < |found| ==> !Sets(found, j, name)
    ensures name in Assign(found)
    ensures Assign(found)[name] == found[i].value.value
    decreases |found|
  {
    var init := found[..|found| - 1];
    if i < |found| - 1 {
      assert Sets(init, i, name);
      forall j | i < j < |init|
        ensures !Sets(init, j, name)
      {
        assert !Sets(found, j, name);
      }
      AssignLastWins(init, i, name);
      assert !Sets(found, |found| - 1, name);
    }
  }

  /** Reading a file of one line. */
  lemma ReadIniOne(line: string, fields: set<string>)
    ensures ReadIni([line], fields) == match ReadIniLine(line, fields)
      case None => map[]
      case Some(s) => map[s.name := s.value]
  {
    var found := Parse([line], fields);
    assert found == [ReadIniLine(line, fields)];
    assert found[..0] == [];
    assert Assign(found) == match found[0]
      case None => map[]
      case Some(s) => map[][s.name := s.value];
  }

  /** Reading a file of two lines whose first line sets nothing. */
  lemma ReadIniIgnoredFirst(first: string, line: string, fields: set<string>)
    requires ReadIniLine(first, fields).None?
    ensures ReadIni([first, line], fields) == ReadIni([line], fields)
  {
    var found := Parse([first, line], fields);
    var one := Parse([line], fields);
    assert found == [None, ReadIniLine(line, fields)];
    assert one == [ReadIniLine(line, fields)];
    assert found[..1] == [None];
    assert Assign(found[..1]) == map[] by {
      assert found[..1][..0] == [];
    }
    assert one[..0] == [];
  }

  /** What `_WriteData` is called for: the config type itself (comment only) or one field. */
  datatype Target = TypeTarget | FieldTarget(name: string)

  /**
   * The comment line: written as is when it starts with '[', ';' or a line
   * break, otherwise after "; "; nothing for a null or empty comment.
   */
  function CommentText(comment: Option<string>): (r: string)
    ensures comment.None? || comment.value == "" <==> r == ""
  {
    match comment
    case None => ""
    case Some(c) =>
      if c == "" then ""
      else if c[0] in {'[', ';', '\r', '\n'} then c + "\r\n"
      else "; " + c + "\r\n"
  }

  /** The value text `_WriteData` writes: quoted when trimming would change it. */
  function EncodeValueAsWritten(v: string): (r: string)
    ensures Trimmed(v) ==> r == v
    ensures !Trimmed(v) ==> r == "\"" + v + "\""
  {
    TrimUnchanged(v);
    if Trim(v) != v then "\"" + v + "\"" else v
  }

  /** As `EncodeValueAsWritten`, but a value the reader would unquote is quoted too. */
  function EncodeValue(v: string): (r: string)
    ensures Trimmed(r)
  {
    if !Trimmed(v) || Wrapped(v) then "\"" + v + "\"" else v
  }

  /** `_WriteData`: the comment line, then `name = value` for a field (a null value writes nothing after "= "). */
  function WriteData(target: Target, value: Option<string>, comment: Option<string>): string {
    CommentText(comment) + match target
      case TypeTarget => ""
      case FieldTarget(name) =>
        name + " = " + (if value.Some? then EncodeValue(value.value) else "") + "\r\n"
  }

  /** A name `_ReadFile` reads back as itself. */
  predicate GoodName(name: string, fields: set<string>) {
    name in fields && |name| > 0 && Trimmed(name) && Lacks(name, '=') && NoBreak(name) && name[0] != ';'
  }

  /** Reading `name = text`: the name, and the text trimmed and unquoted. */
  lemma {:induction false} ReadFieldLine(name: string, text: string, fields: set<string>)
    requires GoodName(name, fields)
    ensures ReadIniLine(name + " = " + text, fields) == Some(Setting(name, Unquote(Trim(" " + text))))
  {
    var line := name + " = " + text;
    assert line == (name + " ") + "=" + (" " + text);
    var i := IndexOf(line, '=', 0);
    IndexOfFirst(line, '=', 0);
    assert line[|name| + 1] == '=';
    assert forall k :: 0 <= k <= |name| ==> line[k] != '=';
    assert i == |name| + 1;
    var split := SplitOnce(line);
    assert split[0] == name + " ";
    assert split[1] == " " + text;
    TrimSkipsTrailingSpace(name);
    TrimUnchanged(name);
  }

  /** A text without line breaks ending in "\r\n" is one line. */
  lemma OneLine(line: string)
    requires NoBreak(line)
    ensures Lines(line + "\r\n") == [line]
  {
    HeadPrefix(line, "\r\n");
    HeadAtBreak("\r\n");
    assert "\r\n"[2..] == "";
    assert line + "" == line;
    assert LineHead(line + "\r\n") == line;
    assert Remainder(line + "\r\n") == "";
    LinesCons(line + "\r\n");
    assert Lines("") == [];
  }

  /** Two texts without line breaks, each ending in "\r\n", are two lines. */
  lemma TwoLines(a: string, b: string)
    requires NoBreak(a) && NoBreak(b)
    ensures Lines(a + "\r\n" + b + "\r\n") == [a, b]
  {
    var tail := "\r\n" + (b + "\r\n");
    assert a + "\r\n" + b + "\r\n" == a + tail;
    HeadPrefix(a, tail);
    HeadAtBreak(tail);
    assert tail[2..] == b + "\r\n";
    assert Remainder(tail) == b + "\r\n";
    assert a + "" == a;
    assert LineHead(a + tail) == a;
    LinesCons(a + tail);
    OneLine(b);
    assert Lines(a + tail) == [a] + [b];
  }

  /** The encoded value is trimmed, so trimming after the separator's space gives it back. */
  lemma EncodedTrim(v: string)
    ensures Trim(" " + EncodeValue(v)) == EncodeValue(v)
  {
    TrimSkipsLeadingSpace(EncodeValue(v));
    TrimUnchanged(EncodeValue(v));
  }

  /** Reading the encoded value back gives the value. */
  lemma UnquoteEncoded(v: string)
    ensures Unquote(EncodeValue(v)) == v
  {
    var e := EncodeValue(v);
    if !Trimmed(v) || Wrapped(v) {
      assert e[1..|e| - 1] == v;
    }
  }

  /** Every value without line breaks survives writing a field and reading the file back. */
  lemma FieldRoundTrip(name: string, v: string, fields: set<string>)
    requires GoodName(name, fields) && NoBreak(v)
    ensures ReadIniFile(WriteData(FieldTarget(name), Some(v), None), fields) == map[name := v]
  {
    var line := name + " = " + EncodeValue(v);
    assert NoBreak(EncodeValue(v));
    OneLine(line);
    assert WriteData(FieldTarget(name), Some(v), None) == line + "\r\n";
    ReadFieldLine(name, EncodeValue(v), fields);
    EncodedTrim(v);
    UnquoteEncoded(v);
    ReadIniOne(line, fields);
  }

  /** A null value is read back as the empty text. */
  lemma NullRoundTrip(name: string, fields: set<string>)
    requires GoodName(name, fields)
    ensures ReadIniFile(WriteData(FieldTarget(name), None, None), fields) == map[name := ""]
  {
    var line := name + " = " + "";
    OneLine(line);
    assert WriteData(FieldTarget(name), None, None) == line + "\r\n";
    ReadFieldLine(name, "", fields);
    assert Trim(" ") == "";
    ReadIniOne(line, fields);
  }

  /** A one-line comment not starting with '[' is ignored by the reader. */
  lemma CommentIgnored(c: string, fields: set<string>)
    requires |c| > 0 && NoBreak(c) && c[0] != '['
    ensures CommentText(Some(c)) == (if c[0] == ';' then c else "; " + c) + "\r\n"
    ensures ReadIniLine(if c[0] == ';' then c else "; " + c, fields).None?
  {
  }

  /** A field with such a comment above it still reads back as written. */
  lemma CommentedFieldRoundTrip(c: string, name: string, v: string, fields: set<string>)
    requires |c| > 0 && NoBreak(c) && c[0] != '['
    requires GoodName(name, fields) && NoBreak(v)
    ensures ReadIniFile(WriteData(FieldTarget(name), Some(v), Some(c)), fields) == map[name := v]
  {
    var first := if c[0] == ';' then c else "; " + c;
    var line := name + " = " + EncodeValue(v);
    CommentIgnored(c, fields);
    assert NoBreak(first) by {
      if c[0] != ';' {
        assert forall i :: 2 <= i < |first| ==> first[i] == c[i - 2];
      }
    }
    assert NoBreak(EncodeValue(v));
    assert WriteData(FieldTarget(name), Some(v), Some(c)) == first + "\r\n" + line + "\r\n";
    TwoLines(first, line);
    ReadFieldLine(name, EncodeValue(v), fields);
    EncodedTrim(v);
    UnquoteEncoded(v);
    ReadIniIgnoredFirst(first, line, fields);
    ReadIniOne(line, fields);
  }

  /**
   * The writer as the source has it: a value survives the round trip
   * exactly when it is not a quote-wrapped text without surrounding
   * white space, which is written bare and then unquoted by the reader.
   */
  lemma AsWrittenRoundTrip(name: string, v: string, fields: set<string>)
    requires GoodName(name, fields)
    ensures var r := ReadIniLine(name + " = " + EncodeValueAsWritten(v), fields);
      r.Some? && r.value.name == name
      && (r.value.value == v <==> !(Trimmed(v) && Wrapped(v)))
  {
    var e := EncodeValueAsWritten(v);
    ReadFieldLine(name, e, fields);
    TrimUnchanged(v);
    TrimSkipsLeadingSpace(e);
    if Trim(v) != v {
      assert Trimmed(e);
      TrimUnchanged(e);
      assert e[1..|e| - 1] == v;
    } else {
      TrimUnchanged(e);
    }
  }

  /** The value `"x"` is written bare and read back as `x`. */
  lemma QuotedValueLosesQuotes()
    ensures EncodeValueAsWritten("\"x\"") == "\"x\""
    ensures ReadIniLine("speed = \"x\"", {"speed"}) == Some(Setting("speed", "x"))
  {
    TrimUnchanged("\"x\"");
    assert GoodName("speed", {"speed"});
    ReadFieldLine("speed", "\"x\"", {"speed"});
    TrimSkipsLeadingSpace("\"x\"");
    assert Trim(" " + "\"x\"") == "\"x\"";
    assert "\"x\""[1..2] == "x";
    assert "speed" + " = " + "\"x\"" == "speed = \"x\"";
  }
}

=== FILE: line_text.dfy ===
/**
 * Plain text helpers shared by the CSV and INI codecs: searching, the line
 * splitting done by `TextReader.ReadLine` / `File.ReadAllLines`, and the
 * line-break normalisation that reading a multi-line cell performs.
 */
module LineText {
  import opened Nullable

  /** The characters at which `ReadLine` ends a line. */
  predicate IsBreak(c: char) {
    c == '\r' || c == '\n'
  }

  predicate NoBreak(s: string) {
    forall i :: 0 <= i < |s| ==> !IsBreak(s[i])
  }

  /** `s` does not contain `c`. */
  predicate Lacks(s: string, c: char) {
    forall i :: 0 <= i < |s| ==> s[i] != c
  }

  predicate NoCR(s: string) {
    Lacks(s, '\r')
  }

  predicate AllNoCR(ss: seq<string>) {
    forall i :: 0 <= i < |ss| ==> NoCR(ss[i])
  }

  /** `String.IndexOf(c, from)`: the first index at or after `from` holding `c`, or -1. */
  function IndexOf(s: string, c: char, from: nat): (r: int)
    requires from <= |s|
    ensures r == -1 || (from <= r < |s| && s[r] == c)
    decreases |s| - from
  {
    if from == |s| then -1
    else if s[from] == c then from
    else IndexOf(s, c, from + 1)
  }

  /** `IndexOf` finds the first occurrence: none lies between `from` and its result. */
  lemma {:induction false} IndexOfFirst(s: string, c: char, from: nat)
    requires from <= |s|
    ensures var r := IndexOf(s, c, from);
      (r == -1 ==> forall i :: from <= i < |s| ==> s[i] != c)
      && (r >= 0 ==> forall i :: from <= i < r ==> s[i] != c)
    decreases |s| - from
  {
    if from < |s| && s[from] != c {
      IndexOfFirst(s, c, from + 1);
    }
  }

  /** The text before the first line break: the line `ReadLine` returns. */
  function LineHead(s: string): string {
    if |s| == 0 || IsBreak(s[0]) then "" else [s[0]] + LineHead(s[1..])
  }

  /** The text after the first line break, where "\r\n" is one break; empty when there is none. */
  function Remainder(s: string): (r: string)
    ensures |s| > 0 ==> |r| < |s|
  {
    if |s| == 0 then ""
    else if s[0] == '\n' then s[1..]
    else if s[0] == '\r' then (if |s| > 1 && s[1] == '\n' then s[2..] else s[1..])
    else Remainder(s[1..])
  }

  /** How many characters the break at `s[k]` takes: two for "\r\n", one otherwise. */
  function BreakWidth(s: string, k: nat): nat
    requires k < |s|
  {
    if s[k] == '\r' && k + 1 < |s| && s[k + 1] == '\n' then 2 else 1
  }

  /** `StringReader.ReadLine` on the unread text: nothing at the end, else the line and what follows it. */
  function ReadLine(s: string): (r: Option<(string, string)>)
    ensures r.None? <==> |s| == 0
    ensures r.Some? ==> |r.value.1| < |s|
  {
    if |s| == 0 then None else Some((LineHead(s), Remainder(s)))
  }

  /**
   * What `ReadLine` gives: the break-free text up to the first break, and the
   * text right after that break ("\r\n" being one break), or nothing after a last line.
   */
  lemma ReadLineSplitsAtBreak(s: string)
    requires |s| > 0
    ensures var (line, rest) := ReadLine(s).value;
      var k := |line|;
      k <= |s| && line == s[..k] && NoBreak(line)
      && (k == |s| ==> rest == "")
      && (k < |s| ==> IsBreak(s[k]) && rest == s[k + BreakWidth(s, k)..])
  {
    LineHeadIsPrefix(s);
    LineHeadNoBreak(s);
    RemainderAfterHead(s);
  }

  /** The remainder starts right after the break that ends the first line. */
  lemma {:induction false} RemainderAfterHead(s: string)
    ensures var k := |LineHead(s)|;
      k <= |s|
      && (k == |s| ==> Remainder(s) == "")
      && (k < |s| ==> Remainder(s) == s[k + BreakWidth(s, k)..])
  {
    if |s| > 0 && !IsBreak(s[0]) {
      RemainderAfterHead(s[1..]);
      assert s[1..][|LineHead(s[1..])|..] == s[|LineHead(s)|..];
    }
  }

  /** The lines successive `ReadLine` calls return before null; also `File.ReadAllLines`. */
  function Lines(s: string): (r: seq<string>)
    ensures |r| == 0 <==> |s| == 0
    decreases |s|
  {
    match ReadLine(s)
    case None => []
    case Some((line, after)) => [line] + Lines(after)
  }

  /** A line is never longer than the text and holds no line break. */
  lemma {:induction false} LineHeadNoBreak(s: string)
    ensures |LineHead(s)| <= |s| && NoBreak(LineHead(s))
  {
    if |s| > 0 && !IsBreak(s[0]) {
      LineHeadNoBreak(s[1..]);
    }
  }

  /** No line `ReadLine` returns holds a line break. */
  lemma {:induction false} LinesNoBreak(s: string)
    ensures forall i :: 0 <= i < |Lines(s)| ==> NoBreak(Lines(s)[i])
    decreases |s|
  {
    if |s| > 0 {
      LineHeadNoBreak(s);
      LinesNoBreak(Remainder(s));
      LinesCons(s);
    }
  }

  /** The text with every line break ("\r\n", "\r" or "\n") turned into one "\n". */
  function Norm(s: string): string
    decreases |s|
  {
    if |s| == 0 then ""
    else if IsBreak(s[0]) then "\n" + Norm(Remainder(s))
    else [s[0]] + Norm(s[1..])
  }

  /** Normalised text has no '\r' left. */
  lemma {:induction false} NormHasNoCR(s: string)
    ensures NoCR(Norm(s))
    decreases |s|
  {
    if |s| > 0 {
      if IsBreak(s[0]) {
        NormHasNoCR(Remainder(s));
      } else {
        NormHasNoCR(s[1..]);
      }
    }
  }

  /** Text without '\r' is already normal: its only breaks are single "\n". */
  lemma {:induction false} NormKeepsNoCR(s: string)
    requires NoCR(s)
    ensures Norm(s) == s
    decreases |s|
  {
    if |s| > 0 {
      assert NoCR(s[1..]);
      NormKeepsNoCR(s[1..]);
      assert s == [s[0]] + s[1..];
    }
  }

  /** `String.Join(sep, parts)`. */
  function Join(parts: seq<string>, sep: string): string
  {
    if |parts| == 0 then ""
    else if |parts| == 1 then parts[0]
    else parts[0] + sep + Join(parts[1..], sep)
  }

  /** A line break-free prefix does not change where the first line break is. */
  lemma {:induction false} HeadPrefix(a: string, s: string)
    requires NoBreak(a)
    ensures LineHead(a + s) == a + LineHead(s)
    ensures Remainder(a + s) == Remainder(s)
    decreases |a|
  {
    if |a| > 0 {
      assert (a + s)[1..] == a[1..] + s;
      HeadPrefix(a[1..], s);
      assert a == [a[0]] + a[1..];
    } else {
      assert a + s == s;
    }
  }

  /** The line `ReadLine` returns is the longest prefix of the text without a line break. */
  lemma {:induction false} LineHeadIsPrefix(s: string)
    ensures |LineHead(s)| <= |s|
    ensures LineHead(s) == s[..|LineHead(s)|]
    ensures |LineHead(s)| == |s| || IsBreak(s[|LineHead(s)|])
  {
    if |s| > 0 && !IsBreak(s[0]) {
      LineHeadIsPrefix(s[1..]);
      assert s == [s[0]] + s[1..];
    }
  }

  lemma HeadStarts(s: string)
    requires |LineHead(s)| > 0
    ensures LineHead(s)[0] == s[0]
  {
  }

  /** Reading a line from a text that starts with a break gives the empty line. */
  lemma HeadAtBreak(s: string)
    requires |s| > 0 && IsBreak(s[0])
    ensures LineHead(s) == ""
  {
  }

  /** The lines of a non-empty text are its first line followed by the lines of the rest. */
  lemma LinesCons(s: string)
    requires |s| > 0
    ensures Lines(s) == [LineHead(s)] + Lines(Remainder(s))
  {
  }
}

=== FILE: nullable.dfy ===
/** Values the source may leave null: a field never set, a row past the end of the input. */
module Nullable {

  datatype Option<T> = None | Some(value: T)
}
